=== FILE: README.md ===
# Continuous manga listing scraper (`server_1.js`), modelled in Dafny

The scraper walks the "latest" listing of a manga site page by page. It starts at a
given page and stops at page 100. Each page goes through four steps:

- It is fetched directly, then through four relay prefixes in a fixed order, until one
  attempt answers with status 200.
- The listing items are extracted with the first CSS layout that matches anything.
- Each item is compared with the record the Firebase Realtime Database holds under
  `HomeManga/<id>`.
  - An item with no record is stored.
  - An item whose latest chapter changed is merged into its record.
  - A new or updated item then gets a work order under `Jobs/<id>`, and the chapter
    worker ("server 2") is asked to process it.

The run ends at the first page that extracts nothing, or at page 1 when that page
brought nothing new or updated. Any error while handling a page skips to the next
page.

Modules, one per file:

| file | module | models |
|---|---|---|
| `text.dfy` | `Text` | JavaScript string conventions: `undefined`, truthiness, `\|\|`, `trim`, `substring(0, n)`, decimal rendering, `join` |
| `dburl.dfy` | `DbUrl` | `FIXED_DB_URL` |
| `uri.dfy` | `Uri` | `encodeURIComponent`, and a decoder in the manner of `decodeURIComponent` as its partner |
| `fetch.dfy` | `Fetch` | request headers, the relay prefixes, `tryAllProxies` |
| `catalogue.dfy` | `Catalogue` | the `HomeManga` and `Jobs` records |
| `extract.dfy` | `Extract` | `extractManga` |
| `store.dfy` | `Firebase` | `readFromFirebase` / `writeToFirebase` as a `Database` class over the two collections |
| `server2.dfy` | `Server2` | `notifyServer2` as a `Notifier` class with the log of requests sent |
| `crawl.dfy` | `Crawl` | `startContinuousScraping` |

Each imperative part is a method proved equal to a functional specification, and the
properties are proved about that specification. The parts are:

- `tryAllProxies`
- the `.each` callback and the selector loop of `extractManga`
- the wrappers
- the item, page and crawl loops

The crawl is specified by three functions:

- `HandleManga` handles one item.
- `ScanPage` handles the items of one page.
- `CrawlFrom` is the run. It returns the final world and one `PageReport` per page
  visited, and the counters are sums over those reports.

`StartContinuousScraping` is proved to end in exactly the world `CrawlFrom` gives and
to return its totals.

The outside world is made of parameters:

- **Fetching and extracting a page** is an oracle `pages(p)`. It gives the error that
  fetching threw, or the extracted items.
- **The network seen by `tryAllProxies`** is `respond(i, target)`.
- **The database** answers request number `n` as the oracle `answer(n)` says: served,
  404, or failed.
- **`Date.now()`** is a `Clock` whose `n`-th reading is `reading(n)`.
- **`Math.random()`** results are arguments.
- **The MD5 hex digest** is an uninterpreted function `digest`.
- **The parsed page** is a function from a selector to the matched elements. Each
  element holds the attributes and texts the extractor reads.

An attempt succeeds only with status exactly 200. A page whose handling throws is
skipped (`page++`), not retried.

## Model

| member | source | states |
|---|---|---|
| `Text.Or` | server_1.js:157-158 | `a \|\| b` is the left operand when that is truthy and the right one otherwise, so it is truthy exactly when one operand is |
| `Text.FirstNonEmpty` | server_1.js:164 | the fallback chain yields the first non-empty candidate, and the fallback exactly when every candidate is empty |
| `Text.Trim` | server_1.js:151 | the trimmed text is the infix after the leading white space, everything after it is white space, it neither starts nor ends with white space, and it is empty exactly when the text is all white space |
| `Text.Prefix` | server_1.js:167 | `substring(0, n)` is a prefix of the string, of length `min(|s|, n)` |
| `Text.Decimal` | server_1.js:112 | a status renders as one or more decimal digits with no leading zero, a single digit exactly below 10 |
| `Text.DecimalRoundTrip` | server_1.js:112 | the rendered status reads back as the same number, so distinct statuses give distinct error entries |
| `Text.Join` | server_1.js:122 | joining no entries gives the empty text, and joining one entry gives that entry |
| `Text.SplitJoin` | server_1.js:122 | splitting a joined text at a one-character separator gives back exactly the joined parts, in order, when none of them contains the separator |
| `DbUrl.FixDbUrl` | server_1.js:13 | an unset or empty URL is unchanged; a non-empty one ends with `/` afterwards and gains at most that one character; one that already ends with `/` is left alone, so truthiness is preserved |
| `Uri.EncodeUriComponent` | server_1.js:96 | every character of the result is unreserved or `%`, the result is no shorter than the input, and a string of unreserved characters is left unchanged |
| `Uri.EscapeAllSafe` | server_1.js:96 | the `%XX` escapes of any byte sequence consist of `%` and hexadecimal digits only |
| `Uri.EncodeDecodeRoundTrip` | server_1.js:96 | decoding what `encodeURIComponent` produced gives back the original string, for every string |
| `Fetch.PoolIndex` | server_1.js:74-75 | `Math.floor(Math.random() * n)` is an index into a pool of `n` |
| `Fetch.RandomHeaders` | server_1.js:73-87 | the request carries eight headers, and its user agent and referer are members of their pools |
| `Fetch.TargetUrl` | server_1.js:94-97 | the direct attempt requests the page URL itself; a relay attempt requests the prefix followed only by unreserved characters and `%` |
| `Fetch.RelayRecoversUrl` | server_1.js:96 | a relay that decodes the text after its prefix gets exactly the page URL |
| `Fetch.ErrorEntry` | server_1.js:105-117 | a failed attempt's entry says relay or direct as the prefix is empty or not, and is a transport error exactly when the request failed; otherwise it holds the status, split by whether axios resolved it (200 to 499) or rejected it |
| `Fetch.Describe` | server_1.js:111-116 | an entry's text is the route ("proxy" or "direct") and a colon, then the bare status for a status axios resolved, "Request failed with status code " and the status for one it rejected, and the error's own message for a network error; only that message can put a line break into it |
| `Fetch.DescribeAll` | server_1.js:111-122 | the entries' texts are one description per failed attempt, in attempt order |
| `Fetch.ExhaustedMessage` | server_1.js:122 | the thrown message starts with its header line |
| `Fetch.ExhaustedLines` | server_1.js:122 | read line by line, the thrown message is the header followed by exactly one line per failed attempt, in attempt order |
| `Fetch.TryAllProxies` | server_1.js:89-123 | the prefixes are tried in list order and attempt `i` requests `TargetUrl(PROXIES[i], url)`; the body of the first status-200 answer is returned and nothing is tried after it; if no attempt succeeds, all five were made and each left exactly its own error entry, in order |
| `Extract.MangaUrl` | server_1.js:150-153 | the URL is the title link's `href` when that is truthy, and the first link's otherwise |
| `Extract.Title` | server_1.js:151-154 | the title is the trimmed title-link text when that is not blank and the trimmed first-link text otherwise, so it is non-empty exactly when one of the two link texts is not blank once trimmed |
| `Extract.Cover` | server_1.js:157-161 | an item with a URL always gets a truthy cover |
| `Extract.CoverChoice` | server_1.js:157-161 | the cover is the first truthy of the thumbnail's `src`, its `data-src`, an image's `src` and its `data-src`; the placeholder exactly when none is truthy and the item has a URL, and nothing truthy when there is no URL either |
| `Extract.LatestChapter` | server_1.js:164 | the latest chapter label is never empty |
| `Extract.ChapterChoice` | server_1.js:164 | the label is the first of the three chapter texts that is not blank once trimmed, and the "unknown" label exactly when all three are blank |
| `Extract.MangaId` | server_1.js:167 | the id is the first 12 characters of the URL's MD5 hex digest: exactly 12 lower-case hexadecimal digits |
| `Extract.ItemOf` | server_1.js:147-179 | an element yields an item exactly when it has a title and a URL; the item carries that URL, title, id, cover, chapter and `scrapedAt`, and is well formed (pending status, its page, a 12-digit id, no update time) |
| `Extract.Harvest` | server_1.js:146-180 | a selector's matches yield no more items than there are elements, and every item is well formed |
| `Extract.HarvestSingle` | server_1.js:166-179 | one element yields exactly its own item when it has a title and a URL, and nothing otherwise |
| `Extract.HarvestAppend` | server_1.js:146-180 | the items of two runs of elements are those of the first run followed by those of the second, so together with `HarvestSingle` the items come out one per qualifying element, in document order |
| `Extract.HarvestKeepsQualifying` | server_1.js:166-179 | every element with a title and a URL contributes its item |
| `Extract.HarvestOnlyQualifying` | server_1.js:166-179 | every item comes from a matched element that has a title and a URL |
| `Extract.HarvestEmpty` | server_1.js:166 | a selector's matches yield nothing exactly when none of them has both a title and a URL |
| `Extract.FirstMatch` | server_1.js:139-143 | the selector used is the first one with at least one match, and no earlier selector matches anything |
| `Extract.Extracted` | server_1.js:139-185 | a page where no selector matches yields nothing; otherwise no more items than the first matching selector has elements, each well formed; `HarvestSingle` and `HarvestAppend` fix which items and their order |
| `Extract.VisitElement` | server_1.js:147-179 | the `.each` callback yields the item `ItemOf` describes |
| `Extract.CollectItems` | server_1.js:146-180 | the `.each` loop pushes exactly the items of the matched elements, in document order |
| `Extract.ExtractManga` | server_1.js:127-186 | the extracted list holds the items of the first matching selector, each of them well formed |
| `Extract.NoFallThrough` | server_1.js:139-183 | once a selector matches, a page whose matched elements all lack a title or a URL yields nothing, whatever later selectors would match |
| `Extract.ItemsFromFirstMatch` | server_1.js:139-181 | every extracted item comes from an element of the first selector with at least one match |
| `Firebase.ConfiguredSettings` | server_1.js:13-19 | the wrappers send requests exactly when `DATABASE` and `DATABASE_SECRETS` are both set and non-empty, since the normalised URL keeps the truthiness of `DATABASE` |
| `Firebase.Get` | server_1.js:32-48 | a read never changes the collections; it throws exactly when the store is configured and the request failed with something other than 404; a served read finds a record exactly when one is stored, and that record; an unconfigured or 404 read gives null |
| `Firebase.PutManga` | server_1.js:18-30 | a write to `HomeManga` leaves `Jobs` alone; it reports success exactly when the store is unset or the request was served, and only a served request stores anything, under its own key alone |
| `Firebase.PutJob` | server_1.js:18-30 | a write to `Jobs` leaves `HomeManga` alone; it reports success exactly when the store is unset or the request was served, and only a served request stores anything, under its own key alone |
| `Firebase.RequestsCounted` | server_1.js:19-25 | each read or write sends one request exactly when the store is configured |
| `Firebase.ReadAfterWrite` | server_1.js:18-48 | a record just written is what the next served read of its key finds |
| `Firebase.Database.constructor` | server_1.js:9-13 | the database starts from the given collections and its connection settings |
| `Firebase.Database.ReadManga` | server_1.js:32-48 | the read wrapper returns and leaves behind exactly what `Get` describes |
| `Firebase.Database.WriteManga` | server_1.js:18-30 | the write wrapper on `HomeManga` succeeds or throws, and leaves behind exactly what `PutManga` describes |
| `Firebase.Database.WriteJob` | server_1.js:18-30 | the write wrapper on `Jobs` does what `PutJob` describes |
| `Server2.NotifyRequests` | server_1.js:190-196 | one notification request is sent exactly when `SERVER_2_URL` is set and non-empty, and it starts with that URL |
| `Server2.NotifiedIdRecoverable` | server_1.js:196 | the request path is `/process-manga/` followed by the manga id, so the worker reads the id back from it |
| `Server2.Notifier.constructor` | server_1.js:11 | the notifier starts with the configured URL and nothing sent |
| `Server2.Notifier.NotifyServer2` | server_1.js:190-205 | notifying appends the request, if any, to the log and never fails |
| `Crawl.Clock.Now` | server_1.js:238 | each `Date.now()` call returns the next reading |
| `Crawl.Classify` | server_1.js:232-248 | an item is new exactly when nothing is stored, updated exactly when the stored latest chapter differs, and unchanged otherwise |
| `Crawl.JobFor` | server_1.js:235-240 | the job carries the item's URL and title, the waiting status and the clock reading it was stamped with |
| `Crawl.Merge` | server_1.js:250-254 | an update keeps every stored field but the latest chapter, which is taken from the item, and the update time |
| `Crawl.Announce` | server_1.js:234-246 | storing, queueing and notifying succeeds exactly when the store is unset or both writes are served; the clock is read exactly when the record write succeeded |
| `Crawl.HandleManga` | server_1.js:230-269 | one item: a failed read aborts; a handled item carries the classification of the record read; an unchanged item leaves everything but the read as it was |
| `Crawl.HandleEffects` | server_1.js:229-270 | handling an item touches no key but its own id, and notifies the worker exactly when the item counts as new or updated |
| `Crawl.AnnounceEffects` | server_1.js:234-246 | storing, queueing and notifying touch only the item's own keys, and notify exactly when both writes succeed |
| `Crawl.HandleNew` | server_1.js:232-246 | with the database reachable, an unstored item is written as is, gets a job stamped with the next clock reading and one notification |
| `Crawl.HandleUpdated` | server_1.js:248-268 | with the database reachable, an item with a new chapter gets the merged record, a job stamped with the following clock reading and one notification |
| `Crawl.HandleUnchanged` | server_1.js:230-269 | an item whose read fails, or whose stored chapter is the same, changes nothing and notifies nobody; only the failed read aborts |
| `Crawl.HandleUnconfigured` | server_1.js:19-22 | without database settings nothing is read or written, so every item counts as new and is announced |
| `Crawl.OrphanedRecord` | server_1.js:234-240 | when the record write succeeds but the job write fails, the record stays stored while the jobs are left as they were, and the item is unchanged the next time it is seen, so it gets no job then either |
| `Crawl.ScanPage` | server_1.js:228-270 | no more of a page's items are counted new than handled, a complete page handled them all, and an incomplete one stopped at an item it handled |
| `Crawl.ScanAppend` | server_1.js:228-270 | the items are handled in order: once a run of items stops at a database error nothing after it is handled, and otherwise the next run is handled from the world the first left |
| `Crawl.ScanNotifications` | server_1.js:229-270 | a page sends one notification per new or updated item and no other |
| `Crawl.ScanUnconfigured` | server_1.js:229-270 | without database settings a page always completes and all its items count as new |
| `Crawl.StopCondition` | server_1.js:223-226 | a page stops the run (`Stops`, with `Quiet`) exactly when it lists no items, or when it is page 1, all its items were handled and none was new or updated (lines 276-279) |
| `Crawl.PageStep` | server_1.js:219-292 | a visit reports its own page; a failed fetch is skipped with nothing handled, and it and an empty listing leave the database, the notifications and the clock untouched; an empty listing and only that is reported empty; otherwise the world, the items handled and the items new or updated are those of `ScanPage`, and the page completes exactly when the scan does, with the full item count |
| `Crawl.CrawlFrom` | server_1.js:207-294 | a run from a page above 100 visits nothing; otherwise it visits at least one page and at most the pages up to 100 |
| `Crawl.TraceIsCrawl` | server_1.js:215-294 | a sequence of page visits, each of the next page, that ends with a stop or after page 100 is the whole run |
| `Crawl.VisitNotifications` | server_1.js:229-270 | a page visit notifies once per new or updated item it counts |
| `Crawl.VisitUnconfigured` | server_1.js:223-279 | without database settings a visit stores nothing, counts every found item as new, and no completed page is quiet |
| `Crawl.PagesInOrder` | server_1.js:208-215 | pages are visited consecutively from the start page, none above 100, and none at all exactly when the start is above 100 |
| `Crawl.StopsOnlyAtEnd` | server_1.js:223-279 | only the last visit can stop the run, and the last visit either stops it or is of page 100 |
| `Crawl.ReportsBounded` | server_1.js:228-272 | no page of a run counts more new or updated items than it handled |
| `Crawl.TotalsBounded` | server_1.js:242-272 | summed over pages, the new count and the found count are each at most the number of items handled; with no page skipped, the new count is at most the found count |
| `Crawl.CountersBounded` | server_1.js:209-272 | `newMangaCount` and `totalMangaCount` are each at most the number of items handled, and `newMangaCount` exceeds `totalMangaCount` only if some page was skipped after an error |
| `Crawl.RunNotifications` | server_1.js:246 | the worker gets one notification per item counted in `newMangaCount`, even on pages later skipped, and none when `SERVER_2_URL` is unset |
| `Crawl.RunUnconfigured` | server_1.js:19-22 | without database settings a run stores nothing and its two counters agree |
| `Crawl.UnconfiguredNeverQuiet` | server_1.js:276-279 | without database settings no completed page is quiet, so page 1 never ends the run early |
| `Crawl.AnnounceCandidate` | server_1.js:234-246 | storing, queueing and notifying one item does what `Announce` describes |
| `Crawl.HandleCandidate` | server_1.js:230-269 | the body of the item loop does what `HandleManga` describes |
| `Crawl.HandlePage` | server_1.js:228-270 | the item loop ends in the world `ScanPage` gives; it returns the items handled and the number new or updated, and fails exactly when the scan is incomplete |
| `Crawl.VisitPage` | server_1.js:219-293 | the `try` block for one page does what `PageStep` describes |
| `Crawl.VisitNext` | server_1.js:215-293 | one pass of the page loop visits the current page and extends the run traced so far by exactly that visit |
| `Crawl.StartContinuousScraping` | server_1.js:207-298 | the run ends in the world `CrawlFrom` gives, and returns the totals of the found and of the new or updated items over its page reports |

## Left out

- HTTP itself is left out: axios, the 20 s and 10 s timeouts and the redirect limit. So are the delays between attempts and pages, and all console logging. Each attempt's outcome and each database answer is an oracle argument instead.
- HTML parsing (cheerio) is left out. A page is given as the elements each selector matches, with the attributes and texts the extractor reads from each one.
- `Extract.MangaId`: the MD5 digest is an uninterpreted function whose results are 32 lower-case hexadecimal digits. That two URLs can share an id is not excluded, just as the source does not exclude it.
- `Fetch.ExhaustedLines`: the line-by-line reading of the thrown message assumes no network error message contains a line break. A message with one would add lines.
- `Extract.ExtractManga`: the model uses one `now` for every item's `scrapedAt`. The code calls `Date.now()` once per element.
- Inside the crawl, fetching and extracting a page is one oracle (`pages`), not a call of `TryAllProxies` and `ExtractManga`. Those two are modelled and proved separately.
- Records read back from the database are assumed to have the shape the scraper writes. Records of another shape are not modelled.
- `Uri.EncodeUriComponent`: a character is a Unicode scalar value. So a lone surrogate, for which `encodeURIComponent` throws a URIError, cannot occur.
- The Express routes, the startup code and environment loading are not part of this model. Only the values of `DATABASE`, `DATABASE_SECRETS` and `SERVER_2_URL` are parameters.
- Concurrency between requests is out of scope. Each `await` is modelled as completing before the next statement.

=== FILE: catalogue.dfy ===
/**
 * The records the scraper writes to the Firebase tree: a listing item under
 * `HomeManga/<id>` and a work order for the chapter worker under `Jobs/<id>`.
 */
module Catalogue {
  import opened Text

  /** Status of a freshly extracted listing item. */
  const PENDING_CHAPTERS := "pending_chapters"

  /** Status of a work order waiting for the chapter worker. */
  const WAITING_CHAPTERS := "waiting_chapters"

  /**
   * A listing item as extracted from a page and stored under `HomeManga/<id>`.
   * `updatedAt` is absent on extraction and set when a chapter change is merged in.
   */
  datatype Manga = Manga(
    id: string,
    title: string,
    url: string,
    cover: string,
    latestChapter: string,
    status: string,
    scrapedAt: int,
    page: int,
    updatedAt: Option<int>)

  /** The work order stored under `Jobs/<id>`. */
  datatype Job = Job(mangaUrl: string, status: string, createdAt: int, title: string)
}

=== FILE: crawl.dfy ===
/**
 * `startContinuousScraping(startPage)` (server_1.js lines 207-298): walks the
 * listing pages from `startPage` up to page 100 and, for every item on a page,
 * compares it with the stored record, stores what is new or has a new chapter,
 * queues a chapter job for it and notifies the chapter worker.
 *
 * The outside world is abstract. `pages(p)` is what fetching and extracting page
 * `p` gives: the thrown error of a failed fetch, or the extracted items. The
 * database is `Firebase.Database`, the worker `Server2.Notifier`, and `Date.now`
 * a `Clock` whose `n`-th reading is `reading(n)`.
 *
 * The specification is functional: `HandleManga` for one item, `ScanPage` for the
 * items of one page and `CrawlFrom` for the run, which also produces one report per
 * page visited. The method `StartContinuousScraping` is proved to produce exactly
 * the end state and counters `CrawlFrom` gives.
 */
module Crawl {
  import opened Text
  import opened Catalogue
  import opened Firebase
  import opened Server2

  /** The last page ever requested. */
  const MAX_PAGES := 100

  /** `Date.now()`: the `n`-th call returns `reading(n)`. */
  class Clock {
    const reading: nat -> int
    var ticks: nat

    constructor (reading: nat -> int)
      ensures this.reading == reading && ticks == 0
    {
      this.reading := reading;
      ticks := 0;
    }

    method Now() returns (t: int)
      modifies this
      ensures t == reading(old(ticks)) && ticks == old(ticks) + 1
    {
      t := reading(ticks);
      ticks := ticks + 1;
    }
  }

  /** The fixed parts of the outside world: the database connection, `SERVER_2_URL` and the clock. */
  datatype Env = Env(store: Connection, server2Url: Option<string>, clock: nat -> int)

  /** The changing parts: the database, the notifications sent so far and the clock readings taken. */
  datatype World = World(tree: Tree, sent: seq<string>, ticks: nat)

  function EnvOf(db: Database, server2: Notifier, clock: Clock): Env
  {
    Env(db.connection, server2.server2Url, clock.reading)
  }

  function Observe(db: Database, server2: Notifier, clock: Clock): World
    reads db, server2, clock
  {
    World(db.Contents(), server2.sent, clock.ticks)
  }

  // ---------------------------------------------------------------- one item

  datatype Verdict = New | Updated | Unchanged

  /**
   * How an item compares with what the database holds for its id: new when nothing
   * is stored, updated when the stored latest chapter differs, unchanged otherwise.
   */
  function Classify(existing: Option<Manga>, m: Manga): (v: Verdict)
    ensures v == New <==> existing.None?
    ensures v == Updated <==> existing.Some? && existing.value.latestChapter != m.latestChapter
    ensures v == Unchanged <==> existing.Some? && existing.value.latestChapter == m.latestChapter
  {
    match existing
    case None => New
    case Some(e) => if e.latestChapter != m.latestChapter then Updated else Unchanged
  }

  /**
   * The record written for an updated item: the stored record with the new latest
   * chapter and an update time; every other stored field is kept as it was.
   */
  function Merge(existing: Manga, m: Manga, now: int): (r: Manga)
    ensures r.latestChapter == m.latestChapter && r.updatedAt == Some(now)
    ensures r.id == existing.id && r.title == existing.title && r.url == existing.url
    ensures r.cover == existing.cover && r.status == existing.status
    ensures r.scrapedAt == existing.scrapedAt && r.page == existing.page
  {
    existing.(latestChapter := m.latestChapter, updatedAt := Some(now))
  }

  /** The chapter job queued for an item. */
  function JobFor(m: Manga, now: int): (j: Job)
    ensures j.mangaUrl == m.url && j.title == m.title
    ensures j.status == WAITING_CHAPTERS && j.createdAt == now
  {
    Job(m.url, WAITING_CHAPTERS, now, m.title)
  }

  /** How one item ended: classified, or cut short by a database error. */
  datatype Outcome = Handled(verdict: Verdict) | Aborted

  datatype Step = Step(outcome: Outcome, world: World)

  /** Whether an outcome counts towards `pageNewManga` and `newMangaCount`. */
  predicate IsFresh(o: Outcome)
  {
    o.Handled? && o.verdict != Unchanged
  }

  /** What a read found, as the record or nothing. */
  function Existing(lookup: Lookup): Option<Manga>
  {
    if lookup.Found? then Some(lookup.record) else None
  }

  /**
   * Storing `record` for a new or updated item, then its job (stamped with the next
   * clock reading), then notifying the worker; an error stops the sequence.
   */
  function Announce(env: Env, w: World, m: Manga, verdict: Verdict, record: Manga): (r: Step)
    ensures r.outcome == Handled(verdict) || r.outcome == Aborted
    ensures r.outcome == Handled(verdict) <==>
      !Configured(env.store) || (Accepted(env.store, w.tree) && env.store.answer(w.tree.requests + 1) == Served)
    ensures r.world.ticks == if !Configured(env.store) || Accepted(env.store, w.tree) then w.ticks + 1 else w.ticks
  {
    var put := PutManga(env.store, w.tree, m.id, record);
    if !put.ok then Step(Aborted, w.(tree := put.after))
    else
      var job := PutJob(env.store, put.after, m.id, JobFor(m, env.clock(w.ticks)));
      var w2 := w.(tree := job.after, ticks := w.ticks + 1);
      if !job.ok then Step(Aborted, w2)
      else Step(Handled(verdict), w2.(sent := w.sent + NotifyRequests(env.server2Url, m.id)))
  }

  /** The body of the `for` loop for one item `m`. */
  function HandleManga(env: Env, w: World, m: Manga): (r: Step)
    ensures Get(env.store, w.tree, m.id).lookup.ReadFailed? ==> r.outcome == Aborted
    ensures r.outcome.Handled? ==> r.outcome.verdict == Classify(Existing(Get(env.store, w.tree, m.id).lookup), m)
    ensures r.outcome == Handled(Unchanged) ==> r.world == w.(tree := Get(env.store, w.tree, m.id).after)
  {
    var read := Get(env.store, w.tree, m.id);
    var w1 := w.(tree := read.after);
    if read.lookup.ReadFailed? then Step(Aborted, w1)
    else
      var existing := Existing(read.lookup);
      match Classify(existing, m)
      case New => Announce(env, w1, m, New, m)
      case Updated =>
        Announce(env, w1.(ticks := w1.ticks + 1), m, Updated, Merge(existing.value, m, env.clock(w1.ticks)))
      case Unchanged => Step(Handled(Unchanged), w1)
  }

  /**
   * Handling an item touches no key but its own id, and notifies the worker exactly
   * when the item counts as new or updated (and `SERVER_2_URL` is set).
   */
  lemma HandleEffects(env: Env, w: World, m: Manga)
    ensures var r := HandleManga(env, w, m);
      Untouched(w.tree, r.world.tree, m.id) &&
      r.world.sent == w.sent + (if IsFresh(r.outcome) then NotifyRequests(env.server2Url, m.id) else [])
  {
    var read := Get(env.store, w.tree, m.id);
    var w1 := w.(tree := read.after);
    if !read.lookup.ReadFailed? {
      var existing := Existing(read.lookup);
      match Classify(existing, m)
      case New =>
        AnnounceEffects(env, w1, m, New, m);
      case Updated =>
        AnnounceEffects(env, w1.(ticks := w1.ticks + 1), m, Updated, Merge(existing.value, m, env.clock(w1.ticks)));
      case Unchanged =>
    }
  }

  /** Every key but `id` is present in `after` exactly when in `before`, with the same record or job. */
  ghost predicate Untouched(before: Tree, after: Tree, id: string)
  {
    (forall k :: k != id ==> (k in after.homeManga <==> k in before.homeManga)) &&
    (forall k :: k != id ==> (k in after.jobs <==> k in before.jobs)) &&
    (forall k :: k != id && k in before.homeManga ==> after.homeManga[k] == before.homeManga[k]) &&
    (forall k :: k != id && k in before.jobs ==> after.jobs[k] == before.jobs[k])
  }

  /** Announcing an item touches only its own keys and notifies the worker exactly when it succeeds. */
  lemma AnnounceEffects(env: Env, w: World, m: Manga, verdict: Verdict, record: Manga)
    requires verdict != Unchanged
    ensures var r := Announce(env, w, m, verdict, record);
      Untouched(w.tree, r.world.tree, m.id) &&
      r.world.sent == w.sent + (if IsFresh(r.outcome) then NotifyRequests(env.server2Url, m.id) else [])
  {
  }

  /** Every request of handling an item is served from request number `from` on. */
  predicate ServedFrom(c: Connection, from: nat)
  {
    forall n :: from <= n < from + 3 ==> c.answer(n) == Served
  }

  /**
   * With the database reachable, an item whose id is not stored is written as is,
   * gets a job stamped with the next clock reading and one notification.
   */
  lemma HandleNew(env: Env, w: World, m: Manga)
    requires Configured(env.store) && ServedFrom(env.store, w.tree.requests)
    requires m.id !in w.tree.homeManga
    ensures var r := HandleManga(env, w, m);
      r.outcome == Handled(New) &&
      r.world.tree.homeManga == w.tree.homeManga[m.id := m] &&
      r.world.tree.jobs == w.tree.jobs[m.id := JobFor(m, env.clock(w.ticks))] &&
      r.world.sent == w.sent + NotifyRequests(env.server2Url, m.id)
  {
    assert env.store.answer(w.tree.requests) == Served;
    assert env.store.answer(w.tree.requests + 1) == Served;
  }

  /**
   * With the database reachable, an item whose stored record has another latest
   * chapter gets the merged record (stamped with the next clock reading), a job
   * stamped with the reading after it, and one notification.
   */
  lemma HandleUpdated(env: Env, w: World, m: Manga)
    requires Configured(env.store) && ServedFrom(env.store, w.tree.requests)
    requires m.id in w.tree.homeManga && w.tree.homeManga[m.id].latestChapter != m.latestChapter
    ensures var r := HandleManga(env, w, m);
      r.outcome == Handled(Updated) &&
      r.world.tree.homeManga == w.tree.homeManga[m.id := Merge(w.tree.homeManga[m.id], m, env.clock(w.ticks))] &&
      r.world.tree.jobs == w.tree.jobs[m.id := JobFor(m, env.clock(w.ticks + 1))] &&
      r.world.sent == w.sent + NotifyRequests(env.server2Url, m.id)
  {
    assert env.store.answer(w.tree.requests) == Served;
    assert env.store.answer(w.tree.requests + 1) == Served;
    assert env.store.answer(w.tree.requests + 2) == Served;
  }

  /**
   * An item whose stored record has the same latest chapter, or whose read fails,
   * writes nothing and notifies nobody.
   */
  lemma HandleUnchanged(env: Env, w: World, m: Manga)
    requires Configured(env.store)
    requires env.store.answer(w.tree.requests) == Failed ||
      (env.store.answer(w.tree.requests) == Served && m.id in w.tree.homeManga && w.tree.homeManga[m.id].latestChapter == m.latestChapter)
    ensures var r := HandleManga(env, w, m);
      (r.outcome == Aborted <==> env.store.answer(w.tree.requests) == Failed) &&
      r.world.tree.homeManga == w.tree.homeManga && r.world.tree.jobs == w.tree.jobs &&
      r.world.sent == w.sent && r.world.ticks == w.ticks
  {
  }

  /**
   * Without the database settings nothing is read or written and no error can occur,
   * so every item counts as new and is announced to the worker.
   */
  lemma HandleUnconfigured(env: Env, w: World, m: Manga)
    requires !Configured(env.store)
    ensures var r := HandleManga(env, w, m);
      r.outcome == Handled(New) && r.world.tree == w.tree &&
      r.world.sent == w.sent + NotifyRequests(env.server2Url, m.id)
  {
  }

  /**
   * An item whose record write succeeds but whose job write fails is left stored
   * without a job; the next time it is seen with the same chapter it is unchanged,
   * so no job is queued for it then either.
   */
  lemma OrphanedRecord(env: Env, w: World, m: Manga)
    requires Configured(env.store) && m.id !in w.tree.homeManga
    requires env.store.answer(w.tree.requests) == Served
    requires env.store.answer(w.tree.requests + 1) == Served
    requires env.store.answer(w.tree.requests + 2) == Failed
    requires env.store.answer(w.tree.requests + 3) == Served
    ensures var r := HandleManga(env, w, m);
      r.outcome == Aborted &&
      r.world.tree.homeManga == w.tree.homeManga[m.id := m] && r.world.tree.jobs == w.tree.jobs &&
      HandleManga(env, r.world, m) == Step(Handled(Unchanged), r.world.(tree := r.world.tree.(requests := w.tree.requests + 4)))
  {
    var r := HandleManga(env, w, m);
    assert r.world.tree.requests == w.tree.requests + 3;
  }

  // ---------------------------------------------------------------- one page

  /**
   * The items of one page handled in order: the world afterwards, how many items
   * were handled, how many of them were new or updated, and whether the page ran to
   * its end (it stops at the first database error).
   */
  datatype Scan = Scan(world: World, examined: nat, announced: nat, complete: bool)

  function ScanPage(env: Env, w: World, items: seq<Manga>): (s: Scan)
    ensures s.announced <= s.examined <= |items|
    ensures s.complete ==> s.examined == |items|
    ensures !s.complete ==> 1 <= s.examined
    decreases |items|
  {
    if items == [] then Scan(w, 0, 0, true)
    else
      var step := HandleManga(env, w, items[0]);
      if step.outcome.Aborted? then Scan(step.world, 1, 0, false)
      else
        var rest := ScanPage(env, step.world, items[1..]);
        Scan(rest.world, rest.examined + 1, rest.announced + (if IsFresh(step.outcome) then 1 else 0), rest.complete)
  }

  /** The scan of the items from index `i` on starts with item `i`. */
  lemma ScanFrom(env: Env, w: World, items: seq<Manga>, i: nat)
    requires i < |items|
    ensures var step := HandleManga(env, w, items[i]);
      ScanPage(env, w, items[i..]) ==
        if step.outcome.Aborted? then Scan(step.world, 1, 0, false)
        else
          var rest := ScanPage(env, step.world, items[i + 1..]);
          Scan(rest.world, rest.examined + 1, rest.announced + (if IsFresh(step.outcome) then 1 else 0), rest.complete)
  {
    assert items[i..][0] == items[i];
    assert items[i..][1..] == items[i + 1..];
  }

  /** `scan`, the scan of a whole page, is the first `i` items, `announced` of them fresh, followed by `rest`. */
  predicate ScannedUpTo(scan: Scan, rest: Scan, i: nat, announced: nat)
  {
    scan.world == rest.world && scan.examined == i + rest.examined &&
    scan.announced == announced + rest.announced && scan.complete == rest.complete
  }

  /** Handling item `i` of a page advances the scan by that item, or ends it when the item aborts. */
  lemma ScanAdvance(env: Env, w: World, items: seq<Manga>, i: nat, scan: Scan, announced: nat,
                    outcome: Outcome, after: World)
    requires i < |items| && ScannedUpTo(scan, ScanPage(env, w, items[i..]), i, announced)
    requires Step(outcome, after) == HandleManga(env, w, items[i])
    ensures outcome.Aborted? ==> scan == Scan(after, i + 1, announced, false)
    ensures outcome.Handled? && outcome.verdict == Unchanged ==>
      ScannedUpTo(scan, ScanPage(env, after, items[i + 1..]), i + 1, announced)
    ensures outcome.Handled? && outcome.verdict != Unchanged ==>
      ScannedUpTo(scan, ScanPage(env, after, items[i + 1..]), i + 1, announced + 1)
  {
    ScanFrom(env, w, items, i);
  }

  /**
   * Scanning two runs of items one after the other: once the first run stops at a
   * database error, nothing after it is read, written or notified; otherwise the
   * second run is scanned from the world the first one left.
   */
  lemma {:induction false} ScanAppend(env: Env, w: World, a: seq<Manga>, b: seq<Manga>)
    ensures !ScanPage(env, w, a).complete ==> ScanPage(env, w, a + b) == ScanPage(env, w, a)
    ensures ScanPage(env, w, a).complete ==>
      var s := ScanPage(env, w, a);
      var t := ScanPage(env, s.world, b);
      ScanPage(env, w, a + b) == Scan(t.world, |a| + t.examined, s.announced + t.announced, t.complete)
    decreases |a|
  {
    if a == [] {
      assert a + b == b;
    } else {
      var step := HandleManga(env, w, a[0]);
      assert (a + b)[0] == a[0];
      assert (a + b)[1..] == a[1..] + b;
      if step.outcome.Handled? {
        ScanAppend(env, step.world, a[1..], b);
      }
    }
  }

  /** The worker is notified once per new or updated item of a page, and only then. */
  lemma {:induction false} ScanNotifications(env: Env, w: World, items: seq<Manga>)
    ensures var s := ScanPage(env, w, items);
      w.sent <= s.world.sent &&
      |s.world.sent| == |w.sent| + (if Truthy(env.server2Url) then s.announced else 0)
    decreases |items|
  {
    if items != [] {
      var step := HandleManga(env, w, items[0]);
      HandleEffects(env, w, items[0]);
      if step.outcome.Handled? {
        ScanNotifications(env, step.world, items[1..]);
      }
    }
  }

  /** Without the database settings a page always runs to its end and all of its items count as new. */
  lemma {:induction false} ScanUnconfigured(env: Env, w: World, items: seq<Manga>)
    requires !Configured(env.store)
    ensures var s := ScanPage(env, w, items);
      s.complete && s.announced == |items| && s.world.tree == w.tree
    decreases |items|
  {
    if items != [] {
      HandleUnconfigured(env, w, items[0]);
      ScanUnconfigured(env, HandleManga(env, w, items[0]).world, items[1..]);
    }
  }

  // ---------------------------------------------------------------- the run

  /** What one page fetch gave: the error thrown by fetching, or the extracted items. */
  datatype Listing = Unreachable | Listed(items: seq<Manga>)

  /**
   * What became of one page: skipped after an error (with the items handled before
   * it), empty (the run stops), or completed (with its item count).
   */
  datatype PageReport =
    | Skipped(page: int, examined: nat, announced: nat)
    | Empty(page: int)
    | Completed(page: int, found: nat, announced: nat)

  datatype Run = Run(world: World, reports: seq<PageReport>)

  function Then(report: PageReport, rest: Run): Run
  {
    Run(rest.world, [report] + rest.reports)
  }

  /** A page that ran to its end without finding anything new or updated. */
  predicate Quiet(report: PageReport)
  {
    report.Completed? && report.announced == 0
  }

  /** Whether the run ends after this page: it was empty, or it was page 1 and brought nothing new. */
  predicate Stops(report: PageReport)
  {
    report.Empty? || (Quiet(report) && report.page == 1)
  }

  /**
   * The run ends after a page exactly when the page listed no items, or when it is
   * page 1 and all its items were handled without one of them being new or updated.
   */
  lemma StopCondition(env: Env, listing: Listing, page: int, w: World)
    ensures Stops(PageStep(env, listing, page, w).report) <==>
      (listing.Listed? && listing.items == []) ||
      (page == 1 && listing.Listed? && listing.items != [] &&
       ScanPage(env, w, listing.items).complete && ScanPage(env, w, listing.items).announced == 0)
  {
  }

  /** One page visited: its report and the world afterwards. */
  datatype Visit = Visit(report: PageReport, world: World)

  /**
   * The body of the `try` block for page `page`, given what fetching it gave: an
   * error skips the page untouched, no items ends the run, and otherwise the items
   * are handled until the first database error.
   */
  function PageStep(env: Env, listing: Listing, page: int, w: World): (v: Visit)
    ensures v.report.page == page
    ensures FreshOn(v.report) <= ExaminedOn(v.report)
    ensures v.report.Completed? ==> 0 < v.report.found && listing.Listed? && v.report.found == |listing.items|
    ensures v.report.Empty? <==> listing.Listed? && listing.items == []
    ensures listing.Unreachable? ==> v.report == Skipped(page, 0, 0)
    ensures !(listing.Listed? && listing.items != []) ==> v.world == w
    ensures listing.Listed? && listing.items != [] ==>
      var s := ScanPage(env, w, listing.items);
      v.world == s.world && ExaminedOn(v.report) == s.examined && FreshOn(v.report) == s.announced &&
      (v.report.Completed? <==> s.complete)
  {
    match listing
    case Unreachable => Visit(Skipped(page, 0, 0), w)
    case Listed(items) =>
      if items == [] then Visit(Empty(page), w)
      else
        var s := ScanPage(env, w, items);
        if s.complete then Visit(Completed(page, |items|, s.announced), s.world)
        else Visit(Skipped(page, s.examined, s.announced), s.world)
  }

  /** The remaining run from page `page` on, in world `w`: one visit per page until a stop or page 100. */
  function CrawlFrom(env: Env, pages: int -> Listing, page: int, w: World): (r: Run)
    ensures page > MAX_PAGES ==> r == Run(w, [])
    ensures page <= MAX_PAGES ==> 1 <= |r.reports| <= MAX_PAGES + 1 - page
    decreases if page <= MAX_PAGES then MAX_PAGES + 1 - page else 0
  {
    if page > MAX_PAGES then Run(w, [])
    else
      var v := PageStep(env, pages(page), page, w);
      if Stops(v.report) then Run(v.world, [v.report])
      else Then(v.report, CrawlFrom(env, pages, page + 1, v.world))
  }

  /**
   * `reports` and `worlds` are the first visits of a run from page `start`:
   * `worlds[k]` is the world before visit `k`, which is of page `start + k`, and no
   * visit but possibly the last one stops the run.
   */
  ghost predicate Trace(env: Env, pages: int -> Listing, start: int, reports: seq<PageReport>, worlds: seq<World>)
  {
    |worlds| == |reports| + 1 &&
    forall k :: 0 <= k < |reports| ==>
      VisitAt(env, pages, start + k, reports[k], worlds[k], worlds[k + 1]) &&
      (k < |reports| - 1 ==> !Stops(reports[k]))
  }

  /** Page `page` is visited in world `before`, giving `report` and world `after`. */
  ghost predicate VisitAt(env: Env, pages: int -> Listing, page: int, report: PageReport, before: World, after: World)
  {
    page <= MAX_PAGES && Visit(report, after) == PageStep(env, pages(page), page, before)
  }

  /** A visit of the next page, after one that did not stop the run, extends the trace. */
  lemma TraceExtend(env: Env, pages: int -> Listing, start: int, reports: seq<PageReport>, worlds: seq<World>,
                    report: PageReport, after: World)
    requires Trace(env, pages, start, reports, worlds)
    requires reports != [] ==> !Stops(reports[|reports| - 1])
    requires VisitAt(env, pages, start + |reports|, report, worlds[|worlds| - 1], after)
    ensures Trace(env, pages, start, reports + [report], worlds + [after])
  {
    var reports', worlds' := reports + [report], worlds + [after];
    forall k | 0 <= k < |reports'|
      ensures VisitAt(env, pages, start + k, reports'[k], worlds'[k], worlds'[k + 1]) &&
        (k < |reports'| - 1 ==> !Stops(reports'[k]))
    {
      if k < |reports| {
        assert reports'[k] == reports[k] && worlds'[k] == worlds[k] && worlds'[k + 1] == worlds[k + 1];
      }
    }
  }

  /** The first visit of a trace is the first step of the run. */
  lemma TraceFirst(env: Env, pages: int -> Listing, start: int, reports: seq<PageReport>, worlds: seq<World>)
    requires Trace(env, pages, start, reports, worlds) && reports != []
    requires |reports| == 1 ==> Stops(reports[0]) || start + 1 > MAX_PAGES
    ensures |reports| == 1 ==> CrawlFrom(env, pages, start, worlds[0]) == Run(worlds[1], reports)
    ensures |reports| > 1 ==> CrawlFrom(env, pages, start, worlds[0]) == Then(reports[0], CrawlFrom(env, pages, start + 1, worlds[1]))
  {
    assert VisitAt(env, pages, start, reports[0], worlds[0], worlds[1]);
  }

  /** Without its first visit, a trace is the trace of the run from the next page. */
  lemma TraceTail(env: Env, pages: int -> Listing, start: int, reports: seq<PageReport>, worlds: seq<World>)
    requires Trace(env, pages, start, reports, worlds) && |reports| > 1
    ensures Trace(env, pages, start + 1, reports[1..], worlds[1..])
  {
    var tail, rest := reports[1..], worlds[1..];
    forall k | 0 <= k < |tail|
      ensures VisitAt(env, pages, start + 1 + k, tail[k], rest[k], rest[k + 1]) && (k < |tail| - 1 ==> !Stops(tail[k]))
    {
      assert tail[k] == reports[k + 1] && rest[k] == worlds[k + 1] && rest[k + 1] == worlds[k + 2];
    }
  }

  /** A trace that ends with a stop, or after page 100, is the whole run. */
  lemma {:induction false} TraceIsCrawl(env: Env, pages: int -> Listing, start: int, reports: seq<PageReport>, worlds: seq<World>)
    requires Trace(env, pages, start, reports, worlds)
    requires (reports != [] && Stops(reports[|reports| - 1])) || start + |reports| > MAX_PAGES
    ensures CrawlFrom(env, pages, start, worlds[0]) == Run(worlds[|worlds| - 1], reports)
    decreases |reports|
  {
    if |reports| == 1 {
      TraceFirst(env, pages, start, reports, worlds);
    } else if |reports| > 1 {
      TraceFirst(env, pages, start, reports, worlds);
      TraceTail(env, pages, start, reports, worlds);
      TraceIsCrawl(env, pages, start + 1, reports[1..], worlds[1..]);
      RunJoins(CrawlFrom(env, pages, start, worlds[0]), CrawlFrom(env, pages, start + 1, worlds[1]), reports, worlds);
    }
  }

  /** A run that is the first report followed by the run of the remaining reports is the run of all of them. */
  lemma RunJoins(whole: Run, rest: Run, reports: seq<PageReport>, worlds: seq<World>)
    requires |reports| > 1 && |worlds| == |reports| + 1
    requires whole == Then(reports[0], rest)
    requires rest == Run(worlds[1..][|worlds[1..]| - 1], reports[1..])
    ensures whole == Run(worlds[|worlds| - 1], reports)
  {
    assert worlds[1..][|worlds[1..]| - 1] == worlds[|worlds| - 1];
    assert [reports[0]] + reports[1..] == reports;
  }

  /** What a page adds to `totalMangaCount`: its item count, once it has completed. */
  function FoundOn(report: PageReport): nat
  {
    if report.Completed? then report.found else 0
  }

  /** What a page adds to `newMangaCount`: its new and updated items, completed or not. */
  function FreshOn(report: PageReport): nat
  {
    match report
    case Skipped(_, _, announced) => announced
    case Empty(_) => 0
    case Completed(_, _, announced) => announced
  }

  /** How many items of a page were handled. */
  function ExaminedOn(report: PageReport): nat
  {
    match report
    case Skipped(_, examined, _) => examined
    case Empty(_) => 0
    case Completed(_, found, _) => found
  }

  function TotalFound(reports: seq<PageReport>): nat
    decreases |reports|
  {
    if reports == [] then 0 else TotalFound(reports[..|reports| - 1]) + FoundOn(reports[|reports| - 1])
  }

  function TotalFresh(reports: seq<PageReport>): nat
    decreases |reports|
  {
    if reports == [] then 0 else TotalFresh(reports[..|reports| - 1]) + FreshOn(reports[|reports| - 1])
  }

  function TotalExamined(reports: seq<PageReport>): nat
    decreases |reports|
  {
    if reports == [] then 0 else TotalExamined(reports[..|reports| - 1]) + ExaminedOn(reports[|reports| - 1])
  }

  /** Appending a report adds its counts to the totals. */
  lemma TotalsAppend(reports: seq<PageReport>, report: PageReport)
    ensures TotalFound(reports + [report]) == TotalFound(reports) + FoundOn(report)
    ensures TotalFresh(reports + [report]) == TotalFresh(reports) + FreshOn(report)
    ensures TotalExamined(reports + [report]) == TotalExamined(reports) + ExaminedOn(report)
  {
    assert (reports + [report])[..|reports|] == reports;
  }

  /** The totals of two runs of reports one after the other add up. */
  lemma {:induction false} TotalsConcat(a: seq<PageReport>, b: seq<PageReport>)
    ensures TotalFound(a + b) == TotalFound(a) + TotalFound(b)
    ensures TotalFresh(a + b) == TotalFresh(a) + TotalFresh(b)
    ensures TotalExamined(a + b) == TotalExamined(a) + TotalExamined(b)
    decreases |b|
  {
    if b == [] {
      assert a + b == a;
    } else {
      var init, last := b[..|b| - 1], b[|b| - 1];
      TotalsConcat(a, init);
      TotalsAppend(a + init, last);
      TotalsAppend(init, last);
      assert init + [last] == b;
      assert (a + init) + [last] == a + b;
    }
  }

  /** Putting a report in front of others adds its counts to their totals. */
  lemma TotalsCons(report: PageReport, reports: seq<PageReport>)
    ensures TotalFound([report] + reports) == FoundOn(report) + TotalFound(reports)
    ensures TotalFresh([report] + reports) == FreshOn(report) + TotalFresh(reports)
  {
    TotalsAppend([], report);
    TotalsConcat([report], reports);
  }

  /** A page visit notifies the worker once per new or updated item of the page, and only then. */
  lemma VisitNotifications(env: Env, listing: Listing, page: int, w: World)
    ensures var v := PageStep(env, listing, page, w);
      w.sent <= v.world.sent &&
      |v.world.sent| == |w.sent| + (if Truthy(env.server2Url) then FreshOn(v.report) else 0)
  {
    if listing.Listed? && listing.items != [] {
      ScanNotifications(env, w, listing.items);
    }
  }

  /** Without the database settings a visit stores nothing and counts every item it finds as new. */
  lemma VisitUnconfigured(env: Env, listing: Listing, page: int, w: World)
    requires !Configured(env.store)
    ensures var v := PageStep(env, listing, page, w);
      v.world.tree == w.tree && FreshOn(v.report) == FoundOn(v.report) &&
      !Quiet(v.report)
  {
    if listing.Listed? && listing.items != [] {
      ScanUnconfigured(env, w, listing.items);
    }
  }

  // ---------------------------------------------------------------- properties of a run

  /**
   * Pages are visited one after another from `page` on, each at most once and none
   * above page 100; the run visits nothing exactly when it starts above page 100.
   */
  lemma {:induction false} PagesInOrder(env: Env, pages: int -> Listing, page: int, w: World)
    ensures var r := CrawlFrom(env, pages, page, w);
      (forall k :: 0 <= k < |r.reports| ==> r.reports[k].page == page + k && r.reports[k].page <= MAX_PAGES) &&
      (r.reports == [] <==> page > MAX_PAGES)
    decreases if page <= MAX_PAGES then MAX_PAGES + 1 - page else 0
  {
    if page <= MAX_PAGES {
      var v := PageStep(env, pages(page), page, w);
      if !Stops(v.report) {
        PagesInOrder(env, pages, page + 1, v.world);
        var r, rest := CrawlFrom(env, pages, page, w), CrawlFrom(env, pages, page + 1, v.world);
        forall k | 0 <= k < |r.reports|
          ensures r.reports[k].page == page + k && r.reports[k].page <= MAX_PAGES
        {
          if k > 0 {
            assert r.reports[k] == rest.reports[k - 1];
          }
        }
      }
    }
  }

  /**
   * The run ends only where the loop exits: no report but the last one stops it, and
   * the last one stops it or is of page 100.
   */
  lemma {:induction false} StopsOnlyAtEnd(env: Env, pages: int -> Listing, page: int, w: World)
    ensures var r := CrawlFrom(env, pages, page, w);
      (forall k :: 0 <= k < |r.reports| - 1 ==> !Stops(r.reports[k])) &&
      (r.reports != [] ==> Stops(r.reports[|r.reports| - 1]) || r.reports[|r.reports| - 1].page == MAX_PAGES)
    decreases if page <= MAX_PAGES then MAX_PAGES + 1 - page else 0
  {
    if page <= MAX_PAGES {
      var v := PageStep(env, pages(page), page, w);
      if !Stops(v.report) {
        StopsOnlyAtEnd(env, pages, page + 1, v.world);
        var r, rest := CrawlFrom(env, pages, page, w), CrawlFrom(env, pages, page + 1, v.world);
        assert r.reports == [v.report] + rest.reports;
        forall k | 0 <= k < |r.reports| - 1
          ensures !Stops(r.reports[k])
        {
          if k > 0 {
            assert r.reports[k] == rest.reports[k - 1];
          }
        }
        if rest.reports == [] {
          PagesInOrder(env, pages, page + 1, v.world);
        }
      }
    }
  }

  /** Every report of a run counts no more new or updated items than it handled. */
  lemma {:induction false} ReportsBounded(env: Env, pages: int -> Listing, page: int, w: World)
    ensures forall k :: 0 <= k < |CrawlFrom(env, pages, page, w).reports| ==>
      FreshOn(CrawlFrom(env, pages, page, w).reports[k]) <= ExaminedOn(CrawlFrom(env, pages, page, w).reports[k])
    decreases if page <= MAX_PAGES then MAX_PAGES + 1 - page else 0
  {
    if page <= MAX_PAGES {
      var v := PageStep(env, pages(page), page, w);
      if !Stops(v.report) {
        ReportsBounded(env, pages, page + 1, v.world);
        var r, rest := CrawlFrom(env, pages, page, w), CrawlFrom(env, pages, page + 1, v.world);
        forall k | 0 <= k < |r.reports|
          ensures FreshOn(r.reports[k]) <= ExaminedOn(r.reports[k])
        {
          if k > 0 {
            assert r.reports[k] == rest.reports[k - 1];
          }
        }
      }
    }
  }

  /** No page of the reports was cut short by an error. */
  predicate NoneSkipped(reports: seq<PageReport>)
  {
    forall k :: 0 <= k < |reports| ==> !reports[k].Skipped?
  }

  /** The totals of reports each of which counts no more new items than it handled. */
  lemma {:induction false} TotalsBounded(reports: seq<PageReport>)
    requires forall k :: 0 <= k < |reports| ==> FreshOn(reports[k]) <= ExaminedOn(reports[k])
    ensures TotalFresh(reports) <= TotalExamined(reports) && TotalFound(reports) <= TotalExamined(reports)
    ensures NoneSkipped(reports) ==> TotalFresh(reports) <= TotalFound(reports)
    decreases |reports|
  {
    if reports != [] {
      var init := reports[..|reports| - 1];
      forall k | 0 <= k < |init|
        ensures FreshOn(init[k]) <= ExaminedOn(init[k]) && (NoneSkipped(reports) ==> !init[k].Skipped?)
      {
        assert init[k] == reports[k];
      }
      TotalsBounded(init);
    }
  }

  /**
   * The counters' relations: no more items count as new or updated than were
   * handled, and no more are counted as found than were handled. `newMangaCount` can
   * exceed `totalMangaCount` only through pages cut short by an error: their new and
   * updated items are counted, their items are not.
   */
  lemma CountersBounded(env: Env, pages: int -> Listing, page: int, w: World)
    ensures var r := CrawlFrom(env, pages, page, w);
      TotalFresh(r.reports) <= TotalExamined(r.reports) && TotalFound(r.reports) <= TotalExamined(r.reports) &&
      (NoneSkipped(r.reports) ==> TotalFresh(r.reports) <= TotalFound(r.reports))
  {
    ReportsBounded(env, pages, page, w);
    TotalsBounded(CrawlFrom(env, pages, page, w).reports);
  }

  /**
   * The worker gets one notification per item counted in `newMangaCount`, including
   * those of pages later cut short by an error, and none when `SERVER_2_URL` is unset.
   */
  lemma {:induction false} RunNotifications(env: Env, pages: int -> Listing, page: int, w: World)
    ensures var r := CrawlFrom(env, pages, page, w);
      w.sent <= r.world.sent &&
      |r.world.sent| == |w.sent| + (if Truthy(env.server2Url) then TotalFresh(r.reports) else 0)
    decreases if page <= MAX_PAGES then MAX_PAGES + 1 - page else 0
  {
    if page <= MAX_PAGES {
      var v := PageStep(env, pages(page), page, w);
      VisitNotifications(env, pages(page), page, w);
      if Stops(v.report) {
        TotalsAppend([], v.report);
      } else {
        var rest := CrawlFrom(env, pages, page + 1, v.world);
        RunNotifications(env, pages, page + 1, v.world);
        TotalsCons(v.report, rest.reports);
        assert CrawlFrom(env, pages, page, w) == Run(rest.world, [v.report] + rest.reports);
      }
    }
  }

  /**
   * Without the database settings nothing is stored and every item handled counts as
   * new, so both counters agree.
   */
  lemma {:induction false} RunUnconfigured(env: Env, pages: int -> Listing, page: int, w: World)
    requires !Configured(env.store)
    ensures CrawlFrom(env, pages, page, w).world.tree == w.tree
    ensures TotalFresh(CrawlFrom(env, pages, page, w).reports) == TotalFound(CrawlFrom(env, pages, page, w).reports)
    decreases if page <= MAX_PAGES then MAX_PAGES + 1 - page else 0
  {
    if page <= MAX_PAGES {
      var v := PageStep(env, pages(page), page, w);
      VisitUnconfigured(env, pages(page), page, w);
      if Stops(v.report) {
        TotalsAppend([], v.report);
      } else {
        var rest := CrawlFrom(env, pages, page + 1, v.world);
        RunUnconfigured(env, pages, page + 1, v.world);
        TotalsCons(v.report, rest.reports);
        assert CrawlFrom(env, pages, page, w) == Run(rest.world, [v.report] + rest.reports);
      }
    }
  }

  /** Without the database settings no completed page brings nothing new, so page 1 never ends the run early. */
  lemma {:induction false} UnconfiguredNeverQuiet(env: Env, pages: int -> Listing, page: int, w: World)
    requires !Configured(env.store)
    ensures forall k :: 0 <= k < |CrawlFrom(env, pages, page, w).reports| ==> !Quiet(CrawlFrom(env, pages, page, w).reports[k])
    decreases if page <= MAX_PAGES then MAX_PAGES + 1 - page else 0
  {
    if page <= MAX_PAGES {
      var v := PageStep(env, pages(page), page, w);
      VisitUnconfigured(env, pages(page), page, w);
      if !Stops(v.report) {
        UnconfiguredNeverQuiet(env, pages, page + 1, v.world);
        var r, rest := CrawlFrom(env, pages, page, w), CrawlFrom(env, pages, page + 1, v.world);
        assert r.reports == [v.report] + rest.reports;
        forall k | 0 <= k < |r.reports|
          ensures !Quiet(r.reports[k])
        {
          if k > 0 {
            assert r.reports[k] == rest.reports[k - 1];
          }
        }
      }
    }
  }

  // ---------------------------------------------------------------- the loop

  /**
   * Storing `record` for an item found new or updated, then its job, then notifying
   * the worker. The thrown error of a database wrapper is `Aborted`.
   */
  method AnnounceCandidate(db: Database, server2: Notifier, clock: Clock, manga: Manga, verdict: Verdict, record: Manga)
    returns (outcome: Outcome)
    modifies db, server2, clock
    ensures Step(outcome, Observe(db, server2, clock)) ==
      Announce(EnvOf(db, server2, clock), old(Observe(db, server2, clock)), manga, verdict, record)
  {
    var ok := db.WriteManga(manga.id, record);
    if !ok {
      return Aborted;
    }
    var createdAt := clock.Now();
    ok := db.WriteJob(manga.id, Job(manga.url, WAITING_CHAPTERS, createdAt, manga.title));
    if !ok {
      return Aborted;
    }
    server2.NotifyServer2(manga.id);
    return Handled(verdict);
  }

  /**
   * One item: read the stored record, then store, queue and notify as its
   * classification says. The thrown error of a database wrapper is `Aborted`.
   */
  method HandleCandidate(db: Database, server2: Notifier, clock: Clock, manga: Manga) returns (outcome: Outcome)
    modifies db, server2, clock
    ensures Step(outcome, Observe(db, server2, clock)) ==
      HandleManga(EnvOf(db, server2, clock), old(Observe(db, server2, clock)), manga)
  {
    ghost var env, w := EnvOf(db, server2, clock), Observe(db, server2, clock);
    var existingManga := db.ReadManga(manga.id);
    ghost var w1 := w.(tree := Get(env.store, w.tree, manga.id).after);
    assert Observe(db, server2, clock) == w1;
    if existingManga.ReadFailed? {
      return Aborted;
    }
    if existingManga.Absent? {
      outcome := AnnounceCandidate(db, server2, clock, manga, New, manga);
    } else if existingManga.record.latestChapter != manga.latestChapter {
      var updatedAt := clock.Now();
      outcome := AnnounceCandidate(db, server2, clock, manga, Updated,
        existingManga.record.(latestChapter := manga.latestChapter, updatedAt := Some(updatedAt)));
    } else {
      outcome := Handled(Unchanged);
    }
  }

  /**
   * The `for` loop over one page's items: handles them in order and stops at the
   * first database error. `pageNewManga` counts the new and updated items, `handled`
   * the items handled, and `failed` says whether an error cut the page short.
   */
  method HandlePage(db: Database, server2: Notifier, clock: Clock, mangaOnPage: seq<Manga>)
    returns (pageNewManga: nat, handled: nat, failed: bool)
    modifies db, server2, clock
    ensures ScanPage(EnvOf(db, server2, clock), old(Observe(db, server2, clock)), mangaOnPage) ==
      Scan(Observe(db, server2, clock), handled, pageNewManga, !failed)
  {
    ghost var env := EnvOf(db, server2, clock);
    ghost var scan := ScanPage(env, Observe(db, server2, clock), mangaOnPage);
    pageNewManga, failed := 0, false;
    var i := 0;
    while i < |mangaOnPage| && !failed
      invariant 0 <= i <= |mangaOnPage|
      invariant !failed ==> ScannedUpTo(scan, ScanPage(env, Observe(db, server2, clock), mangaOnPage[i..]), i, pageNewManga)
      invariant failed ==> scan == Scan(Observe(db, server2, clock), i, pageNewManga, false)
    {
      ghost var before := Observe(db, server2, clock);
      var outcome := HandleCandidate(db, server2, clock, mangaOnPage[i]);
      ScanAdvance(env, before, mangaOnPage, i, scan, pageNewManga, outcome, Observe(db, server2, clock));
      if outcome.Aborted? {
        failed := true;
      } else if outcome.verdict != Unchanged {
        pageNewManga := pageNewManga + 1;
      }
      i := i + 1;
    }
    if !failed {
      assert mangaOnPage[i..] == [];
    }
    handled := i;
  }

  /**
   * The `try` block for one page, given what fetching and extracting it gave:
   * reports whether the page was skipped after an error, was empty, or completed.
   */
  method VisitPage(page: int, listing: Listing, db: Database, server2: Notifier, clock: Clock)
    returns (report: PageReport)
    modifies db, server2, clock
    ensures Visit(report, Observe(db, server2, clock)) ==
      PageStep(EnvOf(db, server2, clock), listing, page, old(Observe(db, server2, clock)))
  {
    if listing.Unreachable? {
      return Skipped(page, 0, 0);
    }
    var mangaOnPage := listing.items;
    if |mangaOnPage| == 0 {
      return Empty(page);
    }
    var pageNewManga, handled, failed := HandlePage(db, server2, clock, mangaOnPage);
    if failed {
      return Skipped(page, handled, pageNewManga);
    }
    return Completed(page, |mangaOnPage|, pageNewManga);
  }

  /** Visits the next page of a run traced so far, and extends the trace with that visit. */
  method VisitNext(page: int, pages: int -> Listing, db: Database, server2: Notifier, clock: Clock,
                   ghost startPage: int, ghost done: seq<PageReport>, ghost worlds: seq<World>)
    returns (report: PageReport)
    requires page <= MAX_PAGES && page == startPage + |done|
    requires done != [] ==> !Stops(done[|done| - 1])
    requires Trace(EnvOf(db, server2, clock), pages, startPage, done, worlds)
    requires worlds[|worlds| - 1] == Observe(db, server2, clock)
    modifies db, server2, clock
    ensures report.page == page
    ensures Trace(EnvOf(db, server2, clock), pages, startPage, done + [report], worlds + [Observe(db, server2, clock)])
  {
    report := VisitPage(page, pages(page), db, server2, clock);
    TraceExtend(EnvOf(db, server2, clock), pages, startPage, done, worlds, report, Observe(db, server2, clock));
  }

  /**
   * `startContinuousScraping(startPage)`. Returns the two counters; the database,
   * the notifications sent and the clock end as `CrawlFrom` says, and the counters
   * are the totals of its page reports.
   */
  method StartContinuousScraping(startPage: int, pages: int -> Listing, db: Database, server2: Notifier, clock: Clock)
    returns (totalMangaCount: nat, newMangaCount: nat)
    modifies db, server2, clock
    ensures var run := CrawlFrom(EnvOf(db, server2, clock), pages, startPage, old(Observe(db, server2, clock)));
      Observe(db, server2, clock) == run.world &&
      totalMangaCount == TotalFound(run.reports) && newMangaCount == TotalFresh(run.reports)
  {
    ghost var env := EnvOf(db, server2, clock);
    ghost var done: seq<PageReport> := [];
    ghost var worlds: seq<World> := [Observe(db, server2, clock)];
    var page := startPage;
    totalMangaCount, newMangaCount := 0, 0;
    while page <= MAX_PAGES
      invariant env == EnvOf(db, server2, clock)
      invariant page == startPage + |done|
      invariant done != [] ==> !Stops(done[|done| - 1])
      invariant Trace(env, pages, startPage, done, worlds)
      invariant worlds[0] == old(Observe(db, server2, clock)) && worlds[|worlds| - 1] == Observe(db, server2, clock)
      invariant totalMangaCount == TotalFound(done) && newMangaCount == TotalFresh(done)
      decreases MAX_PAGES + 1 - page
    {
      var report := VisitNext(page, pages, db, server2, clock, startPage, done, worlds);
      TotalsAppend(done, report);
      done := done + [report];
      worlds := worlds + [Observe(db, server2, clock)];
      newMangaCount := newMangaCount + FreshOn(report);
      if report.Completed? {
        totalMangaCount := totalMangaCount + report.found;
      }
      if Stops(report) {
        break;
      }
      page := page + 1;
    }
    TraceIsCrawl(env, pages, startPage, done, worlds);
  }
}

=== FILE: dburl.dfy ===
/**
 * The database base URL as the scraper uses it (`FIXED_DB_URL`, server_1.js line 13):
 * the `DATABASE` environment value with a trailing slash appended when it is a
 * non-empty string without one; an unset or empty value passes through unchanged.
 */
module DbUrl {
  import opened Text

  predicate EndsWithSlash(s: string)
  {
    s != [] && s[|s| - 1] == '/'
  }

  function FixDbUrl(databaseUrl: Option<string>): (r: Option<string>)
    // unset stays unset, and truthiness is kept, so Firebase is "configured" exactly when DATABASE is
    ensures r.None? <==> databaseUrl.None?
    ensures Truthy(r) <==> Truthy(databaseUrl)
    ensures !Truthy(databaseUrl) ==> r == databaseUrl
    // a non-empty URL always ends with '/' afterwards, and only gains that one character
    ensures Truthy(databaseUrl) ==> EndsWithSlash(r.value)
    ensures Truthy(databaseUrl) ==> databaseUrl.value <= r.value && |r.value| <= |databaseUrl.value| + 1
    // a URL that already ends with '/' is left alone, so normalising twice changes nothing
    ensures Truthy(databaseUrl) && EndsWithSlash(databaseUrl.value) ==> r == databaseUrl
  {
    if Truthy(databaseUrl) && !EndsWithSlash(databaseUrl.value) then Some(databaseUrl.value + "/")
    else databaseUrl
  }
}

=== FILE: extract.dfy ===
/**
 * `extractManga(html, pageNum)` (server_1.js lines 127-186): the listing items of
 * one page.
 *
 * The parsed page is abstracted as `query`, which maps a CSS selector to the
 * elements it matches, in document order; each element is abstracted as the
 * attributes and texts the extractor reads from inside it. The MD5 hex digest
 * used for ids is the uninterpreted function `digest`, and `now` stands for the
 * clock reading stored as `scrapedAt`.
 */
module Extract {
  import opened Text
  import opened Catalogue

  /** The listing layouts, tried in this order; only the first one that matches anything is used. */
  const SELECTORS: seq<string> := [
    ".c-tabs-item__content .tab-content-area .row .col-sm-6",
    ".c-tabs-item__content .tab-content-area .row .col-6",
    ".page-content-listing .row .col-6",
    ".post-list .post-item"
  ]

  const PLACEHOLDER_COVER := "https://via.placeholder.com/175x238?text=No+Cover"

  /** The chapter label used when an element shows none ("unknown"). */
  const UNKNOWN_CHAPTER := "غير معروف"

  /** Ids are the first 12 hexadecimal digits of the URL's digest. */
  const ID_LENGTH: nat := 12

  /** A lower-case hexadecimal digit, as `digest('hex')` writes them. */
  predicate IsLowerHex(c: char)
  {
    ('0' <= c <= '9') || ('a' <= c <= 'f')
  }

  /** An MD5 digest in hexadecimal: 32 lower-case hexadecimal digits. */
  predicate IsMd5Hex(s: string)
  {
    |s| == 32 && forall i :: 0 <= i < |s| ==> IsLowerHex(s[i])
  }

  /** What `crypto.createHash('md5').update(u).digest('hex')` returns; the digest itself is left uninterpreted. */
  type HexDigest = s: string | IsMd5Hex(s) witness "00000000000000000000000000000000"

  /**
   * What the extractor reads inside one matched element: the `href` of the first
   * `.post-title a` (an absent attribute is `None`) and the text of all `.post-title a`
   * together; the `href` and text of the first `a`; `src` and `data-src` of the first
   * `.item-thumb img` and of the first `img`; and the text of all `.chapter-item .chapter a`,
   * of all `.chapter a` and of all `.chapter-text` (each empty when nothing matches).
   */
  datatype Element = Element(
    titleLinkHref: Option<string>,
    titleLinkText: string,
    firstLinkHref: Option<string>,
    firstLinkText: string,
    thumbSrc: Option<string>,
    thumbDataSrc: Option<string>,
    imgSrc: Option<string>,
    imgDataSrc: Option<string>,
    chapterItemText: string,
    chapterLinkText: string,
    chapterText: string)

  /** The item URL: the title link's `href`, else the first link's. */
  function MangaUrl(e: Element): (r: Option<string>)
    ensures Truthy(e.titleLinkHref) ==> r == e.titleLinkHref
    ensures !Truthy(e.titleLinkHref) ==> r == e.firstLinkHref
    ensures Truthy(r) <==> Truthy(e.titleLinkHref) || Truthy(e.firstLinkHref)
  {
    Or(e.titleLinkHref, e.firstLinkHref)
  }

  /** The title: the title link's trimmed text, else the first link's. */
  function Title(e: Element): (r: string)
    ensures Trim(e.titleLinkText) != "" ==> r == Trim(e.titleLinkText)
    ensures Trim(e.titleLinkText) == "" ==> r == Trim(e.firstLinkText)
    ensures r != "" <==> Trim(e.titleLinkText) != "" || Trim(e.firstLinkText) != ""
    ensures r != "" ==> !IsSpace(r[0]) && !IsSpace(r[|r| - 1])
  {
    var t := Trim(e.titleLinkText);
    if t != "" then t else Trim(e.firstLinkText)
  }

  /** No image attribute the extractor reads is truthy. */
  predicate NoImage(e: Element)
  {
    !Truthy(e.thumbSrc) && !Truthy(e.thumbDataSrc) && !Truthy(e.imgSrc) && !Truthy(e.imgDataSrc)
  }

  /** The cover: the thumbnail's `src` or `data-src`, else any image's, else the placeholder when the item has a URL. */
  function Cover(e: Element): (r: Option<string>)
    ensures Truthy(MangaUrl(e)) ==> Truthy(r)
  {
    var found := Or(Or(e.thumbSrc, e.thumbDataSrc), Or(e.imgSrc, e.imgDataSrc));
    if !Truthy(found) && Truthy(MangaUrl(e)) then Some(PLACEHOLDER_COVER) else found
  }

  /**
   * Which image the cover comes from: the thumbnail's `src`, its `data-src`, any
   * image's `src`, its `data-src`, the first of them that is truthy; the placeholder
   * exactly when none is and the item has a URL.
   */
  lemma CoverChoice(e: Element)
    ensures Truthy(e.thumbSrc) ==> Cover(e) == e.thumbSrc
    ensures !Truthy(e.thumbSrc) && Truthy(e.thumbDataSrc) ==> Cover(e) == e.thumbDataSrc
    ensures !Truthy(e.thumbSrc) && !Truthy(e.thumbDataSrc) && Truthy(e.imgSrc) ==> Cover(e) == e.imgSrc
    ensures !Truthy(e.thumbSrc) && !Truthy(e.thumbDataSrc) && !Truthy(e.imgSrc) && Truthy(e.imgDataSrc) ==>
      Cover(e) == e.imgDataSrc
    ensures NoImage(e) && Truthy(MangaUrl(e)) ==> Cover(e) == Some(PLACEHOLDER_COVER)
    ensures NoImage(e) && !Truthy(MangaUrl(e)) ==> !Truthy(Cover(e))
  {
  }

  /** The latest chapter: the first non-empty trimmed chapter text, else the "unknown" label. */
  function LatestChapter(e: Element): (r: string)
    ensures r != ""
  {
    FirstNonEmpty([Trim(e.chapterItemText), Trim(e.chapterLinkText), Trim(e.chapterText)], UNKNOWN_CHAPTER)
  }

  /**
   * Which text the latest chapter comes from: the first of the three chapter texts
   * that is not blank once trimmed, and the "unknown" label exactly when all are.
   */
  lemma ChapterChoice(e: Element)
    ensures Trim(e.chapterItemText) != "" ==> LatestChapter(e) == Trim(e.chapterItemText)
    ensures Trim(e.chapterItemText) == "" && Trim(e.chapterLinkText) != "" ==> LatestChapter(e) == Trim(e.chapterLinkText)
    ensures Trim(e.chapterItemText) == "" && Trim(e.chapterLinkText) == "" && Trim(e.chapterText) != "" ==>
      LatestChapter(e) == Trim(e.chapterText)
    ensures Trim(e.chapterItemText) == "" && Trim(e.chapterLinkText) == "" && Trim(e.chapterText) == "" ==>
      LatestChapter(e) == UNKNOWN_CHAPTER
  {
    var texts := [Trim(e.chapterItemText), Trim(e.chapterLinkText), Trim(e.chapterText)];
    assert texts[0] == "" ==> EmptyBefore(texts, 1);
    assert texts[0] == "" && texts[1] == "" ==> EmptyBefore(texts, 2);
  }

  /** `md5(url).hex.substring(0, 12)`. */
  function MangaId(url: string, digest: string -> HexDigest): (id: string)
    ensures |id| == ID_LENGTH && id <= digest(url)
    ensures forall i :: 0 <= i < |id| ==> IsLowerHex(id[i])
  {
    Prefix(digest(url), ID_LENGTH)
  }

  /** What every emitted item satisfies. */
  predicate WellFormed(m: Manga, pageNum: int)
  {
    m.title != "" && m.url != "" && m.cover != "" && m.latestChapter != "" &&
    m.status == PENDING_CHAPTERS && m.page == pageNum && |m.id| == ID_LENGTH && m.updatedAt.None?
  }

  /** The item one element yields: one exactly when it has both a title and a URL. */
  function ItemOf(e: Element, pageNum: int, digest: string -> HexDigest, now: int): (r: Option<Manga>)
    ensures r.Some? <==> Title(e) != "" && Truthy(MangaUrl(e))
    ensures r.Some? ==> WellFormed(r.value, pageNum)
    ensures r.Some? ==> r.value.url == MangaUrl(e).value && r.value.title == Title(e)
    ensures r.Some? ==> r.value.id == MangaId(r.value.url, digest) && r.value.latestChapter == LatestChapter(e)
    ensures r.Some? ==> r.value.cover == Cover(e).value && r.value.scrapedAt == now
  {
    var url := MangaUrl(e);
    if Title(e) != "" && Truthy(url) then
      Some(Manga(MangaId(url.value, digest), Title(e), url.value, Cover(e).value, LatestChapter(e),
                 PENDING_CHAPTERS, now, pageNum, None))
    else None
  }

  /** The items a list of elements yields, in document order, each of them well formed. */
  function Harvest(elements: seq<Element>, pageNum: int, digest: string -> HexDigest, now: int): (r: seq<Manga>)
    ensures |r| <= |elements|
    ensures forall m :: m in r ==> WellFormed(m, pageNum)
    decreases |elements|
  {
    if elements == [] then []
    else
      var item := ItemOf(elements[|elements| - 1], pageNum, digest, now);
      Harvest(elements[..|elements| - 1], pageNum, digest, now) + (if item.Some? then [item.value] else [])
  }

  /** One more element adds its item, if it yields one, at the end. */
  lemma HarvestStep(elements: seq<Element>, j: nat, pageNum: int, digest: string -> HexDigest, now: int)
    requires j < |elements|
    ensures var item := ItemOf(elements[j], pageNum, digest, now);
      Harvest(elements[..j + 1], pageNum, digest, now) ==
      Harvest(elements[..j], pageNum, digest, now) + (if item.Some? then [item.value] else [])
  {
    assert elements[..j + 1][..j] == elements[..j];
  }

  /** One element yields its own item, if it has one, and nothing else. */
  lemma HarvestSingle(e: Element, pageNum: int, digest: string -> HexDigest, now: int)
    ensures Harvest([e], pageNum, digest, now) ==
      (if ItemOf(e, pageNum, digest, now).Some? then [ItemOf(e, pageNum, digest, now).value] else [])
  {
    assert [e][..0] == [];
  }

  lemma ConcatAssoc<T>(x: seq<T>, y: seq<T>, z: seq<T>)
    ensures x + y + z == x + (y + z)
  {
  }

  /** The last element adds its item, if it yields one, after those of the others. */
  lemma HarvestLast(elements: seq<Element>, pageNum: int, digest: string -> HexDigest, now: int)
    requires elements != []
    ensures var item := ItemOf(elements[|elements| - 1], pageNum, digest, now);
      Harvest(elements, pageNum, digest, now) ==
      Harvest(elements[..|elements| - 1], pageNum, digest, now) + (if item.Some? then [item.value] else [])
  {
  }

  /**
   * Harvesting two runs of elements one after the other gives the items of the
   * first run followed by those of the second: items come out in document order.
   */
  lemma {:induction false} HarvestAppend(a: seq<Element>, b: seq<Element>, pageNum: int, digest: string -> HexDigest, now: int)
    ensures Harvest(a + b, pageNum, digest, now) == Harvest(a, pageNum, digest, now) + Harvest(b, pageNum, digest, now)
    decreases |b|
  {
    if b == [] {
      assert a + b == a;
    } else {
      var init, ab := b[..|b| - 1], a + b;
      var item := ItemOf(b[|b| - 1], pageNum, digest, now);
      var tail := if item.Some? then [item.value] else [];
      var h, hInit := Harvest(a, pageNum, digest, now), Harvest(init, pageNum, digest, now);
      assert ab[..|ab| - 1] == a + init && ab[|ab| - 1] == b[|b| - 1];
      HarvestLast(ab, pageNum, digest, now);
      HarvestAppend(a, init, pageNum, digest, now);
      assert Harvest(b, pageNum, digest, now) == hInit + tail;
      ConcatAssoc(h, hInit, tail);
    }
  }

  /** An element with both a title and a URL contributes its item. */
  lemma {:induction false} HarvestHas(elements: seq<Element>, i: nat, pageNum: int, digest: string -> HexDigest, now: int)
    requires i < |elements| && ItemOf(elements[i], pageNum, digest, now).Some?
    ensures ItemOf(elements[i], pageNum, digest, now).value in Harvest(elements, pageNum, digest, now)
    decreases |elements|
  {
    var init := elements[..|elements| - 1];
    var last := ItemOf(elements[|elements| - 1], pageNum, digest, now);
    var r0 := Harvest(init, pageNum, digest, now);
    assert Harvest(elements, pageNum, digest, now) == r0 + (if last.Some? then [last.value] else []);
    if i < |init| {
      assert elements[i] == init[i];
      HarvestHas(init, i, pageNum, digest, now);
      assert ItemOf(elements[i], pageNum, digest, now).value in r0;
    } else {
      assert i == |elements| - 1;
    }
  }

  /** Every element with both a title and a URL contributes its item. */
  lemma HarvestKeepsQualifying(elements: seq<Element>, pageNum: int, digest: string -> HexDigest, now: int)
    ensures forall i :: 0 <= i < |elements| && ItemOf(elements[i], pageNum, digest, now).Some? ==>
      ItemOf(elements[i], pageNum, digest, now).value in Harvest(elements, pageNum, digest, now)
  {
    forall i | 0 <= i < |elements| && ItemOf(elements[i], pageNum, digest, now).Some? {
      HarvestHas(elements, i, pageNum, digest, now);
    }
  }

  /** Every item comes from an element with both a title and a URL. */
  lemma {:induction false} HarvestOnlyQualifying(elements: seq<Element>, pageNum: int, digest: string -> HexDigest, now: int)
    ensures forall m :: m in Harvest(elements, pageNum, digest, now) ==>
      exists i :: 0 <= i < |elements| && ItemOf(elements[i], pageNum, digest, now) == Some(m)
    decreases |elements|
  {
    if elements != [] {
      var init := elements[..|elements| - 1];
      HarvestOnlyQualifying(init, pageNum, digest, now);
      var r, r0 := Harvest(elements, pageNum, digest, now), Harvest(init, pageNum, digest, now);
      forall m | m in r
        ensures exists i :: 0 <= i < |elements| && ItemOf(elements[i], pageNum, digest, now) == Some(m)
      {
        if m in r0 {
          var i :| 0 <= i < |init| && ItemOf(init[i], pageNum, digest, now) == Some(m);
          assert elements[i] == init[i];
        } else {
          assert ItemOf(elements[|elements| - 1], pageNum, digest, now) == Some(m);
        }
      }
    }
  }

  /** A list of elements yields nothing exactly when none of them has both a title and a URL. */
  lemma HarvestEmpty(elements: seq<Element>, pageNum: int, digest: string -> HexDigest, now: int)
    ensures Harvest(elements, pageNum, digest, now) == [] <==>
      forall i :: 0 <= i < |elements| ==> Title(elements[i]) == "" || !Truthy(MangaUrl(elements[i]))
  {
    var r := Harvest(elements, pageNum, digest, now);
    if r != [] {
      HarvestOnlyQualifying(elements, pageNum, digest, now);
      assert r[0] in r;
    } else {
      HarvestKeepsQualifying(elements, pageNum, digest, now);
    }
  }

  /** The first selector, from index `from` on, that matches at least one element. */
  function FirstMatch(query: string -> seq<Element>, from: nat): (r: Option<nat>)
    ensures r.Some? ==> from <= r.value < |SELECTORS| && query(SELECTORS[r.value]) != []
    ensures r.Some? ==> forall i :: from <= i < r.value ==> query(SELECTORS[i]) == []
    ensures r.None? ==> forall i :: from <= i < |SELECTORS| ==> query(SELECTORS[i]) == []
    decreases |SELECTORS| - from
  {
    if from >= |SELECTORS| then None
    else if query(SELECTORS[from]) != [] then Some(from)
    else FirstMatch(query, from + 1)
  }

  /** The page's items: those of the first matching selector, and nothing from any other. */
  function Extracted(query: string -> seq<Element>, pageNum: int, digest: string -> HexDigest, now: int): (r: seq<Manga>)
    ensures FirstMatch(query, 0).None? ==> r == []
    ensures FirstMatch(query, 0).Some? ==> |r| <= |query(SELECTORS[FirstMatch(query, 0).value])|
    ensures forall m :: m in r ==> WellFormed(m, pageNum)
  {
    match FirstMatch(query, 0)
    case None => []
    case Some(k) => Harvest(query(SELECTORS[k]), pageNum, digest, now)
  }

  /**
   * The callback `extractManga` runs on one matched element: it reads the URL,
   * title, cover and chapter with their fallbacks and returns the item to push,
   * if the element has both a title and a URL.
   */
  method VisitElement(el: Element, pageNum: int, digest: string -> HexDigest, now: int) returns (item: Option<Manga>)
    ensures item == ItemOf(el, pageNum, digest, now)
  {
    var mangaUrl := el.titleLinkHref;
    var title := Trim(el.titleLinkText);
    if !Truthy(mangaUrl) {
      mangaUrl := el.firstLinkHref;
    }
    if title == "" {
      title := Trim(el.firstLinkText);
    }
    var coverUrl := Or(el.thumbSrc, el.thumbDataSrc);
    if !Truthy(coverUrl) {
      coverUrl := Or(el.imgSrc, el.imgDataSrc);
    }
    if !Truthy(coverUrl) && Truthy(mangaUrl) {
      coverUrl := Some(PLACEHOLDER_COVER);
    }
    var latestChapter := FirstNonEmpty([Trim(el.chapterItemText), Trim(el.chapterLinkText), Trim(el.chapterText)], UNKNOWN_CHAPTER);
    assert mangaUrl == MangaUrl(el) && title == Title(el);
    assert coverUrl == Cover(el) && latestChapter == LatestChapter(el);
    item := None;
    if title != "" && Truthy(mangaUrl) {
      var mangaId := Prefix(digest(mangaUrl.value), ID_LENGTH);
      assert mangaId == MangaId(mangaUrl.value, digest);
      item := Some(Manga(mangaId, title, mangaUrl.value, coverUrl.value, latestChapter,
                         PENDING_CHAPTERS, now, pageNum, None));
    }
  }

  /** The `.each` over one selector's matches: visits the elements in order and pushes each item found. */
  method CollectItems(elements: seq<Element>, pageNum: int, digest: string -> HexDigest, now: int)
    returns (mangaList: seq<Manga>)
    ensures mangaList == Harvest(elements, pageNum, digest, now)
  {
    mangaList := [];
    var j := 0;
    while j < |elements|
      invariant 0 <= j <= |elements|
      invariant mangaList == Harvest(elements[..j], pageNum, digest, now)
    {
      var item := VisitElement(elements[j], pageNum, digest, now);
      if item.Some? {
        mangaList := mangaList + [item.value];
      }
      HarvestStep(elements, j, pageNum, digest, now);
      j := j + 1;
    }
    assert elements[..j] == elements;
  }

  /**
   * `extractManga`: walks the selectors in order and, at the first that matches,
   * pushes the item of every element that has a title and a URL, then stops.
   */
  method ExtractManga(query: string -> seq<Element>, pageNum: int, digest: string -> HexDigest, now: int)
    returns (mangaList: seq<Manga>)
    ensures mangaList == Extracted(query, pageNum, digest, now)
    ensures forall j :: 0 <= j < |mangaList| ==> WellFormed(mangaList[j], pageNum)
  {
    mangaList := [];
    var s := 0;
    while s < |SELECTORS|
      invariant 0 <= s <= |SELECTORS|
      invariant FirstMatch(query, 0) == FirstMatch(query, s)
      invariant mangaList == []
    {
      var elements := query(SELECTORS[s]);
      if |elements| > 0 {
        mangaList := CollectItems(elements, pageNum, digest, now);
        break;
      }
      s := s + 1;
    }
  }

  // ---------------------------------------------------------------- properties

  /**
   * The extractor does not fall through: once a selector matches, a page whose matched
   * elements all lack a title or a URL yields no items, whatever later selectors match.
   */
  lemma NoFallThrough(query: string -> seq<Element>, k: nat, pageNum: int, digest: string -> HexDigest, now: int)
    requires k < |SELECTORS| && query(SELECTORS[k]) != []
    requires forall i :: 0 <= i < k ==> query(SELECTORS[i]) == []
    requires forall e :: e in query(SELECTORS[k]) ==> Title(e) == "" || !Truthy(MangaUrl(e))
    ensures Extracted(query, pageNum, digest, now) == []
  {
    var r := FirstMatch(query, 0);
    assert r == Some(k);
    HarvestEmpty(query(SELECTORS[k]), pageNum, digest, now);
  }

  /** Every item of a page comes from an element of the first selector with at least one match. */
  lemma ItemsFromFirstMatch(query: string -> seq<Element>, pageNum: int, digest: string -> HexDigest, now: int, m: Manga)
    requires m in Extracted(query, pageNum, digest, now)
    ensures FirstMatch(query, 0).Some?
    ensures var k := FirstMatch(query, 0).value;
      (forall i :: 0 <= i < k ==> query(SELECTORS[i]) == []) &&
      exists e :: e in query(SELECTORS[k]) && ItemOf(e, pageNum, digest, now) == Some(m)
  {
    HarvestOnlyQualifying(query(SELECTORS[FirstMatch(query, 0).value]), pageNum, digest, now);
  }
}

=== FILE: fetch.dfy ===
/**
 * Fetching one listing page (server_1.js lines 50-123): a random request identity,
 * then the page URL tried directly and through four relay prefixes, in a fixed
 * order, until one attempt answers with status 200.
 *
 * The network is an oracle: `respond(i, target)` is what the `i`-th attempt, a GET
 * of `target`, produced — a response with its status and body, or a transport
 * error (timeout, refused connection, too many redirects).
 */
module Fetch {
  import opened Text
  import opened Uri

  const USER_AGENTS: seq<string> := [
    "Mozilla/5.0 (Windows NT 10.0; Win64; x64) AppleWebKit/537.36 (KHTML, like Gecko) Chrome/120.0.0.0 Safari/537.36",
    "Mozilla/5.0 (Macintosh; Intel Mac OS X 10_15_7) AppleWebKit/537.36 (KHTML, like Gecko) Chrome/120.0.0.0 Safari/537.36",
    "Mozilla/5.0 (Windows NT 10.0; Win64; x64; rv:109.0) Gecko/20100101 Firefox/121.0",
    "Mozilla/5.0 (iPhone; CPU iPhone OS 17_0 like Mac OS X) AppleWebKit/605.1.15 (KHTML, like Gecko) Version/17.0 Mobile/15E148 Safari/604.1"
  ]

  const REFERERS: seq<string> := [
    "https://www.google.com/",
    "https://www.bing.com/",
    "https://azoramoon.com/",
    ""
  ]

  /** The transport prefixes, in the order they are tried; the empty prefix is the direct request. */
  const PROXIES: seq<string> := [
    "",
    "https://cors-anywhere.herokuapp.com/",
    "https://api.allorigins.win/raw?url=",
    "https://corsproxy.io/?",
    "https://proxy.cors.sh/"
  ]

  /** `Math.floor(draw * n)` for a `Math.random()` result `draw`: an index into a pool of `n`. */
  function PoolIndex(draw: real, n: nat): (i: nat)
    requires 0.0 <= draw < 1.0 && n > 0
    ensures i < n
  {
    assert (1.0 - draw) * n as real > 0.0;
    (draw * n as real).Floor as nat
  }

  /**
   * `getRandomHeaders()`, given the two `Math.random()` results it draws: the user
   * agent and the referer are members of their pools, the other headers are fixed.
   */
  function RandomHeaders(uaDraw: real, refererDraw: real): (h: seq<(string, string)>)
    requires 0.0 <= uaDraw < 1.0 && 0.0 <= refererDraw < 1.0
    ensures |h| == 8
    ensures h[0].0 == "User-Agent" && h[0].1 in USER_AGENTS
    ensures h[6].0 == "Referer" && h[6].1 in REFERERS
  {
    [ ("User-Agent", USER_AGENTS[PoolIndex(uaDraw, |USER_AGENTS|)]),
      ("Accept", "text/html,application/xhtml+xml,application/xml;q=0.9,image/webp,*/*;q=0.8"),
      ("Accept-Language", "en-US,en;q=0.5"),
      ("Accept-Encoding", "gzip, deflate, br"),
      ("Connection", "keep-alive"),
      ("Upgrade-Insecure-Requests", "1"),
      ("Referer", REFERERS[PoolIndex(refererDraw, |REFERERS|)]),
      ("DNT", "1") ]
  }

  /**
   * The URL one attempt requests: the page URL itself for the direct attempt,
   * otherwise the relay prefix followed by the escaped page URL, which contains no
   * character that could end the relay's query value.
   */
  function TargetUrl(proxy: string, url: string): (r: string)
    ensures proxy == "" ==> r == url
    ensures proxy != "" ==> proxy <= r
    ensures proxy != "" ==> forall i :: |proxy| <= i < |r| ==> Unreserved(r[i]) || r[i] == '%'
  {
    if proxy == "" then url else proxy + EncodeUriComponent(url)
  }

  /** A relay that decodes the part after its prefix gets back exactly the page URL. */
  lemma RelayRecoversUrl(proxy: string, url: string)
    requires proxy != ""
    ensures DecodeUriComponent(TargetUrl(proxy, url)[|proxy|..]) == Some(url)
  {
    assert TargetUrl(proxy, url)[|proxy|..] == EncodeUriComponent(url);
    EncodeDecodeRoundTrip(url);
  }

  /** What one attempt produced. */
  datatype Outcome = Response(status: nat, body: string) | NetworkError(message: string)

  /** The attempt whose body is returned: a response with status exactly 200. */
  predicate Succeeds(o: Outcome)
  {
    o.Response? && o.status == 200
  }

  /** axios resolves only the statuses in [200, 500), as the request's `validateStatus` says; the rest reject. */
  predicate Resolves(status: nat)
  {
    200 <= status < 500
  }

  /** Why one attempt failed. */
  datatype Reason =
    | Status(code: nat)          // axios resolved with a status in [200, 500) other than 200
    | StatusRejected(code: nat)  // axios rejected a status outside [200, 500)
    | Network(message: string)   // the request itself failed

  /** One entry of `errors`: whether the attempt went through a relay, and why it failed. */
  datatype AttemptError = AttemptError(proxied: bool, reason: Reason)

  /** The entry a failed attempt through `proxy` adds to `errors`. */
  function ErrorEntry(proxy: string, o: Outcome): (e: AttemptError)
    requires !Succeeds(o)
    ensures e.proxied <==> proxy != ""
    ensures o.NetworkError? <==> e.reason.Network?
    ensures o.Response? ==> (e.reason.Status? <==> Resolves(o.status)) && e.reason.code == o.status
  {
    var reason :=
      match o
      case Response(status, _) => if Resolves(status) then Status(status) else StatusRejected(status)
      case NetworkError(message) => Network(message);
    AttemptError(proxy != "", reason)
  }

  /** How an entry names the route: "proxy" for a relay, "direct" otherwise. */
  const PROXY_LABEL := "بروكسي"
  const DIRECT_LABEL := "مباشر"

  /** What axios's error message says before the status it rejected. */
  const REJECTED_TEXT := "Request failed with status code "

  /** The first line of the error thrown once every prefix has failed ("all fetch attempts failed:"). */
  const EXHAUSTED_HEADER := "فشلت جميع محاولات الجلب:"

  function Label(e: AttemptError): string
  {
    if e.proxied then PROXY_LABEL else DIRECT_LABEL
  }

  lemma LabelUnbroken(e: AttemptError)
    ensures '\n' !in Label(e) + ": "
  {
    assert '\n' !in PROXY_LABEL + ": ";
    assert '\n' !in DIRECT_LABEL + ": ";
  }

  lemma HeaderUnbroken()
    ensures '\n' !in EXHAUSTED_HEADER
  {
  }

  /** A rendered status, alone or after the rejection text, holds no line break. */
  lemma DecimalUnbroken(code: nat)
    ensures '\n' !in Decimal(code) && '\n' !in REJECTED_TEXT + Decimal(code)
  {
    var d := Decimal(code);
    assert forall i :: 0 <= i < |d| ==> d[i] != '\n';
    assert '\n' !in REJECTED_TEXT;
  }

  /**
   * The text of one entry as `errors` holds it: the route, a colon, then the status
   * or the message. Only a network error's own message can put a line break into it.
   */
  function Describe(e: AttemptError): (r: string)
    ensures Label(e) + ": " <= r
    ensures e.reason.Network? ==> r[|Label(e)| + 2..] == e.reason.message
    ensures e.reason.Status? ==> r[|Label(e)| + 2..] == Decimal(e.reason.code)
    ensures e.reason.StatusRejected? ==> r[|Label(e)| + 2..] == REJECTED_TEXT + Decimal(e.reason.code)
    ensures !e.reason.Network? ==>
      |Decimal(e.reason.code)| <= |r| && r[|r| - |Decimal(e.reason.code)|..] == Decimal(e.reason.code)
    ensures '\n' in r ==> e.reason.Network? && '\n' in e.reason.message
  {
    var detail :=
      match e.reason
      case Status(code) => Decimal(code)
      case StatusRejected(code) => REJECTED_TEXT + Decimal(code)
      case Network(message) => message;
    var head := Label(e) + ": ";
    var r := head + detail;
    assert '\n' !in head by { LabelUnbroken(e); }
    assert r[|head|..] == detail;
    if e.reason.Network? then r
    else
      DecimalUnbroken(e.reason.code);
      assert r[|r| - |Decimal(e.reason.code)|..] == Decimal(e.reason.code);
      r
  }

  function DescribeAll(errors: seq<AttemptError>): (r: seq<string>)
    ensures |r| == |errors| && forall i :: 0 <= i < |errors| ==> r[i] == Describe(errors[i])
  {
    if errors == [] then [] else [Describe(errors[0])] + DescribeAll(errors[1..])
  }

  /** The result of `tryAllProxies`: the page body, or the thrown error with the collected entries. */
  datatype Fetched = Page(html: string) | Exhausted(errors: seq<AttemptError>)

  /** The message of the error thrown once every prefix has failed: the header, then the entries joined by line breaks. */
  function ExhaustedMessage(errors: seq<AttemptError>): (r: string)
    ensures EXHAUSTED_HEADER + "\n" <= r
  {
    EXHAUSTED_HEADER + "\n" + Join(DescribeAll(errors), "\n")
  }

  /**
   * Read line by line, the message is the header followed by one line per failed
   * attempt, in attempt order, as long as no network error message has a line break.
   */
  lemma ExhaustedLines(errors: seq<AttemptError>)
    requires errors != []
    requires forall i :: 0 <= i < |errors| && errors[i].reason.Network? ==> '\n' !in errors[i].reason.message
    ensures Split(ExhaustedMessage(errors), '\n') == [EXHAUSTED_HEADER] + DescribeAll(errors)
  {
    var lines := DescribeAll(errors);
    forall i | 0 <= i < |lines|
      ensures '\n' !in lines[i]
    {
      assert lines[i] == Describe(errors[i]);
    }
    SplitJoin(lines, '\n');
    HeaderUnbroken();
    SplitLine(EXHAUSTED_HEADER, Join(lines, "\n"), '\n');
  }

  /** What the `i`-th attempt produced: `respond` applied to that attempt's target URL. */
  function Attempt(url: string, respond: (nat, string) -> Outcome, i: nat): Outcome
    requires i < |PROXIES|
  {
    respond(i, TargetUrl(PROXIES[i], url))
  }

  /**
   * `tryAllProxies(url)`; `attempts` is how many requests it made. The prefixes are
   * tried in list order, attempt `i` requesting `TargetUrl(PROXIES[i], url)`; the
   * result is the body of the first attempt with status 200, and no attempt follows
   * it; if there is none, all five were made and each left exactly one error entry,
   * in order.
   */
  method TryAllProxies(url: string, respond: (nat, string) -> Outcome) returns (r: Fetched, attempts: nat)
    ensures 1 <= attempts <= |PROXIES|
    ensures forall i :: 0 <= i < attempts - 1 ==> !Succeeds(Attempt(url, respond, i))
    ensures r.Page? <==> Succeeds(Attempt(url, respond, attempts - 1))
    ensures r.Page? ==> r.html == Attempt(url, respond, attempts - 1).body
    ensures r.Exhausted? ==> attempts == |PROXIES| && |r.errors| == |PROXIES|
    ensures r.Exhausted? ==>
      forall i :: 0 <= i < |PROXIES| ==> r.errors[i] == ErrorEntry(PROXIES[i], Attempt(url, respond, i))
  {
    var errors: seq<AttemptError> := [];
    var i := 0;
    while i < |PROXIES|
      invariant 0 <= i <= |PROXIES| && |errors| == i
      invariant forall k :: 0 <= k < i ==> !Succeeds(Attempt(url, respond, k))
      invariant forall k :: 0 <= k < i ==> errors[k] == ErrorEntry(PROXIES[k], Attempt(url, respond, k))
    {
      var proxy := PROXIES[i];
      var targetUrl := url;
      if proxy != "" {
        targetUrl := proxy + EncodeUriComponent(url);
      }
      var response := respond(i, targetUrl);
      assert response == Attempt(url, respond, i);
      if response.Response? && response.status == 200 {
        return Page(response.body), i + 1;
      }
      errors := errors + [ErrorEntry(proxy, response)];
      i := i + 1;
    }
    r, attempts := Exhausted(errors), |PROXIES|;
  }
}

=== FILE: server2.dfy ===
/**
 * `notifyServer2(mangaId)` (server_1.js lines 190-205): a GET of
 * `<SERVER_2_URL>/process-manga/<id>` that asks the chapter worker to process a
 * manga. The worker's answer, a timeout or an error are all only logged, so the
 * call never fails; the model keeps the log of requests sent and nothing else.
 */
module Server2 {
  import opened Text

  const PROCESS_PATH := "/process-manga/"

  /** The requests one notification sends: none when `SERVER_2_URL` is unset or empty. */
  function NotifyRequests(server2Url: Option<string>, mangaId: string): (r: seq<string>)
    ensures |r| <= 1
    ensures r != [] <==> Truthy(server2Url)
    ensures r != [] ==> server2Url.value <= r[0] && |r[0]| == |server2Url.value| + |PROCESS_PATH| + |mangaId|
  {
    if Truthy(server2Url) then [server2Url.value + PROCESS_PATH + mangaId] else []
  }

  /** The worker reads the id back from the end of the path it is asked for. */
  lemma NotifiedIdRecoverable(server2Url: Option<string>, mangaId: string)
    requires Truthy(server2Url)
    ensures var u := NotifyRequests(server2Url, mangaId)[0];
      u[|server2Url.value| .. |server2Url.value| + |PROCESS_PATH|] == PROCESS_PATH &&
      u[|u| - |mangaId|..] == mangaId
  {
    var u := NotifyRequests(server2Url, mangaId)[0];
    assert u == (server2Url.value + PROCESS_PATH) + mangaId;
  }

  /** The connection to the chapter worker, with the log of the requests sent to it. */
  class Notifier {
    const server2Url: Option<string>
    var sent: seq<string>

    constructor (server2Url: Option<string>)
      ensures this.server2Url == server2Url && sent == []
    {
      this.server2Url := server2Url;
      sent := [];
    }

    /** `notifyServer2(mangaId)`: sends the request, if any, and reports nothing back. */
    method NotifyServer2(mangaId: string)
      modifies this
      ensures sent == old(sent) + NotifyRequests(server2Url, mangaId)
    {
      if !Truthy(server2Url) {
        return;
      }
      var url := server2Url.value + PROCESS_PATH + mangaId;
      sent := sent + [url];
    }
  }
}

=== FILE: store.dfy ===
/**
 * The Firebase Realtime Database as the scraper sees it through its two REST
 * wrappers (server_1.js lines 18-48): the `HomeManga` and `Jobs` collections,
 * keyed by manga id.
 *
 * HTTP is abstracted away. Each request the scraper sends is numbered, and the
 * connection's `answer` oracle says how request number `n` ends: served, answered
 * with 404, or failed in any other way (network error, other status). When the
 * base URL or the secret is missing no request is sent at all: a read yields null
 * and a write does nothing, and neither of them throws.
 */
module Firebase {
  import opened Text
  import opened DbUrl
  import opened Catalogue

  /** The two collections, and how many requests have been sent so far. */
  datatype Tree = Tree(homeManga: map<string, Manga>, jobs: map<string, Job>, requests: nat)

  /** How one request ends. */
  datatype Answer = Served | NotFound | Failed

  /** The `DATABASE` and `DATABASE_SECRETS` settings, and how each request ends. */
  datatype Connection = Connection(databaseUrl: Option<string>, secrets: Option<string>, answer: nat -> Answer)

  /** Both wrappers send requests only when the normalised base URL and the secret are non-empty. */
  predicate Configured(c: Connection)
  {
    Truthy(FixDbUrl(c.databaseUrl)) && Truthy(c.secrets)
  }

  /** The normalised base URL is set exactly when `DATABASE` is, so the wrappers need only the two settings. */
  lemma ConfiguredSettings(c: Connection)
    ensures Configured(c) <==> Truthy(c.databaseUrl) && Truthy(c.secrets)
  {
  }

  /** What `readFromFirebase("HomeManga/<id>")` gives back: a record, null, or a thrown error. */
  datatype Lookup = Found(record: Manga) | Absent | ReadFailed

  datatype ReadReply = ReadReply(lookup: Lookup, after: Tree)
  datatype WriteReply = WriteReply(ok: bool, after: Tree)

  /**
   * Reading `HomeManga/<id>`. A read never changes the stored data; a record it
   * finds is the stored one; it throws exactly when the request was sent and failed
   * with something other than 404.
   */
  function Get(c: Connection, t: Tree, id: string): (r: ReadReply)
    ensures r.after.homeManga == t.homeManga && r.after.jobs == t.jobs
    ensures r.lookup.Found? ==> id in t.homeManga && r.lookup.record == t.homeManga[id]
    ensures r.lookup.ReadFailed? <==> Configured(c) && c.answer(t.requests) == Failed
    ensures Configured(c) && c.answer(t.requests) == Served ==> (r.lookup.Found? <==> id in t.homeManga)
    ensures !Configured(c) || c.answer(t.requests) == NotFound ==> r.lookup == Absent
  {
    if !Configured(c) then ReadReply(Absent, t)
    else
      var lookup :=
        match c.answer(t.requests)
        case Served => if id in t.homeManga then Found(t.homeManga[id]) else Absent
        case NotFound => Absent
        case Failed => ReadFailed;
      ReadReply(lookup, t.(requests := t.requests + 1))
  }

  /** Whether a write sent now succeeds: the store is configured and the request is served. */
  predicate Accepted(c: Connection, t: Tree)
  {
    Configured(c) && c.answer(t.requests) == Served
  }

  /**
   * Writing `m` to `HomeManga/<id>`. Only that key can change, and `Jobs` never does;
   * the write throws exactly when it was sent and not served, and then stores nothing.
   */
  function PutManga(c: Connection, t: Tree, id: string, m: Manga): (r: WriteReply)
    ensures r.after.jobs == t.jobs
    ensures r.ok <==> !Configured(c) || Accepted(c, t)
    ensures r.after.homeManga == if Accepted(c, t) then t.homeManga[id := m] else t.homeManga
  {
    if !Configured(c) then WriteReply(true, t)
    else if c.answer(t.requests) == Served then
      WriteReply(true, t.(homeManga := t.homeManga[id := m], requests := t.requests + 1))
    else WriteReply(false, t.(requests := t.requests + 1))
  }

  /** Writing `j` to `Jobs/<id>`: the same, on the other collection. */
  function PutJob(c: Connection, t: Tree, id: string, j: Job): (r: WriteReply)
    ensures r.after.homeManga == t.homeManga
    ensures r.ok <==> !Configured(c) || Accepted(c, t)
    ensures r.after.jobs == if Accepted(c, t) then t.jobs[id := j] else t.jobs
  {
    if !Configured(c) then WriteReply(true, t)
    else if c.answer(t.requests) == Served then
      WriteReply(true, t.(jobs := t.jobs[id := j], requests := t.requests + 1))
    else WriteReply(false, t.(requests := t.requests + 1))
  }

  /** Every request sent is counted, and one is sent exactly when the store is configured. */
  lemma RequestsCounted(c: Connection, t: Tree, id: string, m: Manga, j: Job)
    ensures Get(c, t, id).after.requests == t.requests + (if Configured(c) then 1 else 0)
    ensures PutManga(c, t, id, m).after.requests == t.requests + (if Configured(c) then 1 else 0)
    ensures PutJob(c, t, id, j).after.requests == t.requests + (if Configured(c) then 1 else 0)
  {
  }

  /** A record just written is what the next served read of its key finds. */
  lemma ReadAfterWrite(c: Connection, t: Tree, id: string, m: Manga)
    requires Accepted(c, t)
    requires c.answer(t.requests + 1) == Served
    ensures Get(c, PutManga(c, t, id, m).after, id).lookup == Found(m)
  {
  }

  /** The database the wrappers talk to; its methods are the two wrappers, per collection. */
  class Database {
    const connection: Connection
    var homeManga: map<string, Manga>
    var jobs: map<string, Job>
    var requests: nat

    function Contents(): Tree
      reads this
    {
      Tree(homeManga, jobs, requests)
    }

    constructor (connection: Connection, homeManga: map<string, Manga>, jobs: map<string, Job>)
      ensures this.connection == connection
      ensures Contents() == Tree(homeManga, jobs, 0)
    {
      this.connection := connection;
      this.homeManga := homeManga;
      this.jobs := jobs;
      this.requests := 0;
    }

    /** `readFromFirebase("HomeManga/<id>")`. */
    method ReadManga(id: string) returns (lookup: Lookup)
      modifies this
      ensures ReadReply(lookup, Contents()) == Get(connection, old(Contents()), id)
    {
      if !Configured(connection) {
        return Absent;
      }
      var answer := connection.answer(requests);
      requests := requests + 1;
      match answer {
        case Served =>
          lookup := if id in homeManga then Found(homeManga[id]) else Absent;
        case NotFound =>
          lookup := Absent;
        case Failed =>
          lookup := ReadFailed;
      }
    }

    /** `writeToFirebase("HomeManga/<id>", m)`; `ok` is false where the wrapper throws. */
    method WriteManga(id: string, m: Manga) returns (ok: bool)
      modifies this
      ensures WriteReply(ok, Contents()) == PutManga(connection, old(Contents()), id, m)
    {
      if !Configured(connection) {
        return true;
      }
      var answer := connection.answer(requests);
      requests := requests + 1;
      if answer != Served {
        return false;
      }
      homeManga := homeManga[id := m];
      ok := true;
    }

    /** `writeToFirebase("Jobs/<id>", j)`; `ok` is false where the wrapper throws. */
    method WriteJob(id: string, j: Job) returns (ok: bool)
      modifies this
      ensures WriteReply(ok, Contents()) == PutJob(connection, old(Contents()), id, j)
    {
      if !Configured(connection) {
        return true;
      }
      var answer := connection.answer(requests);
      requests := requests + 1;
      if answer != Served {
        return false;
      }
      jobs := jobs[id := j];
      ok := true;
    }
  }
}

=== FILE: text.dfy ===
/**
 * JavaScript string conventions the scraper relies on: values that may be
 * `undefined`, truthiness of strings, `||` between them, `String.prototype.trim`,
 * `substring(0, n)` and the decimal rendering of a number in a template literal.
 */
module Text {

  /** A JavaScript value that is either a string or `undefined`. */
  datatype Option<+T> = None | Some(value: T)

  /** A string-or-undefined value is truthy when it is defined and not empty. */
  predicate Truthy(s: Option<string>)
  {
    s.Some? && s.value != ""
  }

  /** `a || b` on string-or-undefined values: the first truthy operand, else the second. */
  function Or(a: Option<string>, b: Option<string>): (r: Option<string>)
    ensures Truthy(a) ==> r == a
    ensures !Truthy(a) ==> r == b
    ensures Truthy(r) <==> Truthy(a) || Truthy(b)
  {
    if Truthy(a) then a else b
  }

  /** `a || b || ... || fallback` over plain strings: the first non-empty one, else `fallback`. */
  function FirstNonEmpty(candidates: seq<string>, fallback: string): (r: string)
    ensures r == fallback || r in candidates
    ensures (forall i :: 0 <= i < |candidates| ==> candidates[i] == "") ==> r == fallback
    ensures forall i :: 0 <= i < |candidates| && candidates[i] != "" && EmptyBefore(candidates, i) ==> r == candidates[i]
  {
    if candidates == [] then fallback
    else if candidates[0] != "" then candidates[0]
    else FirstNonEmpty(candidates[1..], fallback)
  }

  /** Every candidate before index `i` is empty. */
  predicate EmptyBefore(candidates: seq<string>, i: nat)
  {
    forall j :: 0 <= j < i && j < |candidates| ==> candidates[j] == ""
  }

  /**
   * The characters `trim` removes: ECMAScript WhiteSpace (tab, vertical tab,
   * form feed, space, no-break space, zero width no-break space and the Unicode
   * space separators) and LineTerminator (line feed, carriage return, U+2028, U+2029).
   */
  predicate IsSpace(c: char)
  {
    c == '\t' || c == '\n' || c == '\U{000B}' || c == '\U{000C}' || c == '\r' ||
    c == ' ' || c == '\U{00A0}' || c == '\U{1680}' || ('\U{2000}' <= c <= '\U{200A}') ||
    c == '\U{2028}' || c == '\U{2029}' || c == '\U{202F}' || c == '\U{205F}' ||
    c == '\U{3000}' || c == '\U{FEFF}'
  }

  /** The number of white-space characters `s` starts with. */
  function LeadingSpaces(s: string): (k: nat)
    ensures k <= |s|
    ensures forall i :: 0 <= i < k ==> IsSpace(s[i])
    ensures k < |s| ==> !IsSpace(s[k])
  {
    if s != [] && IsSpace(s[0]) then 1 + LeadingSpaces(s[1..]) else 0
  }

  /** Drops leading white space. */
  function TrimStart(s: string): (r: string)
    ensures |r| <= |s| && r == s[|s| - |r|..]
    ensures forall i :: 0 <= i < |s| - |r| ==> IsSpace(s[i])
    ensures r != [] ==> !IsSpace(r[0])
  {
    s[LeadingSpaces(s)..]
  }

  /** Drops trailing white space. */
  function TrimEnd(s: string): (r: string)
    ensures |r| <= |s| && r == s[..|r|]
    ensures forall i :: |r| <= i < |s| ==> IsSpace(s[i])
    ensures r != [] ==> !IsSpace(r[|r| - 1])
  {
    if s != [] && IsSpace(s[|s| - 1]) then TrimEnd(s[..|s| - 1]) else s
  }

  /** `s.trim()`: the longest infix of `s` that neither starts nor ends with white space. */
  function Trim(s: string): (r: string)
    ensures r != [] ==> !IsSpace(r[0]) && !IsSpace(r[|r| - 1])
    ensures r == [] <==> forall i :: 0 <= i < |s| ==> IsSpace(s[i])
    ensures LeadingSpaces(s) + |r| <= |s| && r == s[LeadingSpaces(s)..LeadingSpaces(s) + |r|]
    ensures forall i :: LeadingSpaces(s) + |r| <= i < |s| ==> IsSpace(s[i])
  {
    var front := TrimStart(s);
    var r := TrimEnd(front);
    assert r == s[|s| - |front|..][..|r|] == s[|s| - |front|..|s| - |front| + |r|];
    r
  }

  /** `s.substring(0, n)` for a non-negative `n`: the first `n` characters, or all of `s`. */
  function Prefix(s: string, n: nat): (r: string)
    ensures |r| == if |s| < n then |s| else n
    ensures r <= s
  {
    if |s| <= n then s else s[..n]
  }

  /** The decimal digit for `d < 10`. */
  function DigitChar(d: nat): (c: char)
    requires d < 10
    ensures '0' <= c <= '9'
  {
    "0123456789"[d]
  }

  /** The value of a decimal digit character. */
  function DigitValue(c: char): (d: nat)
    requires '0' <= c <= '9'
    ensures d < 10 && DigitChar(d) == c
  {
    (c as int - '0' as int) as nat
  }

  /** How a number is rendered in a template literal (for a non-negative integer). */
  function Decimal(n: nat): (r: string)
    ensures r != [] && (forall i :: 0 <= i < |r| ==> '0' <= r[i] <= '9')
    ensures n < 10 <==> |r| == 1
    ensures n > 0 ==> r[0] != '0'
    decreases n
  {
    if n < 10 then [DigitChar(n)] else Decimal(n / 10) + [DigitChar(n % 10)]
  }

  /** Reads a string of decimal digits back as a number. */
  function ParseDecimal(s: string): (n: nat)
    requires forall i :: 0 <= i < |s| ==> '0' <= s[i] <= '9'
    decreases |s|
  {
    if s == [] then 0 else ParseDecimal(s[..|s| - 1]) * 10 + DigitValue(s[|s| - 1])
  }

  /** A number's decimal rendering reads back as that number, so distinct numbers render differently. */
  lemma {:induction false} DecimalRoundTrip(n: nat)
    ensures ParseDecimal(Decimal(n)) == n
    decreases n
  {
    if n >= 10 {
      DecimalRoundTrip(n / 10);
      var r := Decimal(n);
      assert r[..|r| - 1] == Decimal(n / 10);
      assert DigitValue(DigitChar(n % 10)) == n % 10;
    }
  }

  /** `parts.join(separator)`. */
  function Join(parts: seq<string>, separator: string): (r: string)
    ensures parts == [] ==> r == ""
    ensures |parts| == 1 ==> r == parts[0]
  {
    if parts == [] then ""
    else if |parts| == 1 then parts[0]
    else parts[0] + separator + Join(parts[1..], separator)
  }

  /** `s.split(separator)` for a one-character separator: the pieces between separators, in order. */
  function Split(s: string, separator: char): (r: seq<string>)
    ensures |r| >= 1
    ensures forall i :: 0 <= i < |r| ==> separator !in r[i]
    decreases |s|
  {
    if s == [] then [""]
    else
      var rest := Split(s[1..], separator);
      if s[0] == separator then [""] + rest else [[s[0]] + rest[0]] + rest[1..]
  }

  /** Splitting a piece free of the separator, followed by `t`, glues the piece to the first piece of `t`. */
  lemma {:induction false} SplitPrefix(piece: string, t: string, separator: char)
    requires separator !in piece
    ensures Split(piece + t, separator) == [piece + Split(t, separator)[0]] + Split(t, separator)[1..]
    decreases |piece|
  {
    if piece == [] {
      var r := Split(t, separator);
      assert piece + t == t && piece + r[0] == r[0];
      assert [r[0]] + r[1..] == r;
    } else {
      SplitPrefix(piece[1..], t, separator);
      assert (piece + t)[1..] == piece[1..] + t;
      assert [piece[0]] + (piece[1..] + Split(t, separator)[0]) == piece + Split(t, separator)[0];
    }
  }

  /** A line free of the separator, then the separator, then `rest`, splits into the line and the pieces of `rest`. */
  lemma SplitLine(line: string, rest: string, separator: char)
    requires separator !in line
    ensures Split(line + [separator] + rest, separator) == [line] + Split(rest, separator)
  {
    var tail := [separator] + rest;
    assert line + [separator] + rest == line + tail;
    assert tail[1..] == rest;
    assert Split(tail, separator) == [""] + Split(rest, separator);
    SplitPrefix(line, tail, separator);
    assert line + "" == line;
  }

  /** Joining pieces free of the separator and splitting the result gives back the pieces. */
  lemma {:induction false} SplitJoin(parts: seq<string>, separator: char)
    requires parts != []
    requires forall i :: 0 <= i < |parts| ==> separator !in parts[i]
    ensures Split(Join(parts, [separator]), separator) == parts
    decreases |parts|
  {
    if |parts| == 1 {
      SplitPrefix(parts[0], "", separator);
      assert parts[0] + "" == parts[0];
    } else {
      SplitJoin(parts[1..], separator);
      var tail := [separator] + Join(parts[1..], [separator]);
      assert Join(parts, [separator]) == parts[0] + tail;
      SplitPrefix(parts[0], tail, separator);
      assert tail[1..] == Join(parts[1..], [separator]);
      assert Split(tail, separator) == [""] + parts[1..];
      assert parts[0] + "" == parts[0];
      assert [parts[0]] + parts[1..] == parts;
    }
  }
}

=== FILE: uri.dfy ===
/**
 * `encodeURIComponent` as ECMAScript defines it: the unreserved characters
 * `A-Z a-z 0-9 - _ . ! ~ * ' ( )` are kept, every other character is written
 * as the `%XX` escapes (upper-case hexadecimal) of its UTF-8 bytes.
 *
 * Its partner is a decoder in the manner of `decodeURIComponent`, which is what a
 * relay does to the query value it receives; the round trip shows that the relay
 * gets back exactly the URL the scraper meant.
 */
module Uri {
  import opened Text

  /** The characters `encodeURIComponent` leaves as they are. */
  predicate Unreserved(c: char)
  {
    ('A' <= c <= 'Z') || ('a' <= c <= 'z') || ('0' <= c <= '9') ||
    c == '-' || c == '_' || c == '.' || c == '!' || c == '~' || c == '*' ||
    c == '\'' || c == '(' || c == ')'
  }

  predicate IsHexDigit(c: char)
  {
    ('0' <= c <= '9') || ('A' <= c <= 'F') || ('a' <= c <= 'f')
  }

  function HexValue(c: char): (d: nat)
    requires IsHexDigit(c)
    ensures d < 16
  {
    if '0' <= c <= '9' then (c as int - '0' as int) as nat
    else if 'A' <= c <= 'F' then (c as int - 'A' as int + 10) as nat
    else (c as int - 'a' as int + 10) as nat
  }

  /** The upper-case hexadecimal digit for `d`. */
  function HexDigit(d: nat): (c: char)
    requires d < 16
    ensures IsHexDigit(c) && Unreserved(c) && HexValue(c) == d
  {
    "0123456789ABCDEF"[d]
  }

  /** The escape `%XX` of one byte. */
  function Escape(b: nat): (r: string)
    requires b < 256
    ensures |r| == 3 && r[0] == '%'
  {
    ['%', HexDigit(b / 16), HexDigit(b % 16)]
  }

  predicate IsByteSeq(bytes: seq<nat>)
  {
    forall i :: 0 <= i < |bytes| ==> bytes[i] < 256
  }

  /** The UTF-8 encoding of a Unicode scalar value. */
  function Utf8(c: char): (bytes: seq<nat>)
    ensures 1 <= |bytes| <= 4 && IsByteSeq(bytes)
  {
    var v := c as int;
    if v < 0x80 then [v]
    else if v < 0x800 then [0xC0 + v / 64, 0x80 + v % 64]
    else if v < 0x10000 then [0xE0 + v / 4096, 0x80 + (v / 64) % 64, 0x80 + v % 64]
    else [0xF0 + v / 262144, 0x80 + (v / 4096) % 64, 0x80 + (v / 64) % 64, 0x80 + v % 64]
  }

  function EscapeAll(bytes: seq<nat>): (r: string)
    requires IsByteSeq(bytes)
    ensures |r| == 3 * |bytes|
  {
    if bytes == [] then "" else Escape(bytes[0]) + EscapeAll(bytes[1..])
  }

  /** Escapes consist of `%` and hexadecimal digits only. */
  lemma {:induction false} EscapeAllSafe(bytes: seq<nat>)
    requires IsByteSeq(bytes)
    ensures forall i :: 0 <= i < |EscapeAll(bytes)| ==> Unreserved(EscapeAll(bytes)[i]) || EscapeAll(bytes)[i] == '%'
  {
    if bytes != [] {
      EscapeAllSafe(bytes[1..]);
      var head, tail := Escape(bytes[0]), EscapeAll(bytes[1..]);
      assert EscapeAll(bytes) == head + tail;
      forall i | 0 <= i < |head + tail|
        ensures Unreserved((head + tail)[i]) || (head + tail)[i] == '%'
      {
        if i >= |head| {
          assert (head + tail)[i] == tail[i - |head|];
        }
      }
    }
  }

  function EncodeChar(c: char): (r: string)
    ensures 1 <= |r|
    ensures forall i :: 0 <= i < |r| ==> Unreserved(r[i]) || r[i] == '%'
  {
    if Unreserved(c) then [c] else EscapeAllSafe(Utf8(c)); EscapeAll(Utf8(c))
  }

  /**
   * `encodeURIComponent(s)`. Every character of the result is unreserved or `%`, so
   * none of `/ ? # & = :` survives: appended to a relay prefix, the whole URL stays
   * one query value.
   */
  function EncodeUriComponent(s: string): (r: string)
    ensures |r| >= |s|
    ensures forall i :: 0 <= i < |r| ==> Unreserved(r[i]) || r[i] == '%'
    ensures (forall i :: 0 <= i < |s| ==> Unreserved(s[i])) ==> r == s
  {
    if s == [] then "" else EncodeChar(s[0]) + EncodeUriComponent(s[1..])
  }

  // ---------------------------------------------------------------- decoding

  /** The byte written as `%XX` at position `i` of `t`, if there is one. */
  function PctByte(t: string, i: nat): (r: Option<nat>)
    ensures r.Some? ==> r.value < 256
  {
    if i + 3 <= |t| && t[i] == '%' && IsHexDigit(t[i + 1]) && IsHexDigit(t[i + 2])
    then Some(HexValue(t[i + 1]) * 16 + HexValue(t[i + 2]))
    else None
  }

  /** The length of the UTF-8 sequence a lead byte announces, or 0 for a byte that cannot lead. */
  function Utf8Width(b0: nat): (n: nat)
    ensures n <= 4
  {
    if b0 < 0x80 then 1
    else if 0xC0 <= b0 < 0xE0 then 2
    else if 0xE0 <= b0 < 0xF0 then 3
    else if 0xF0 <= b0 < 0xF8 then 4
    else 0
  }

  predicate IsContinuation(b: Option<nat>)
  {
    b.Some? && 0x80 <= b.value < 0xC0
  }

  /** The scalar value `v`, when it is one and is not an overlong encoding (below `least`). */
  function ToChar(v: int, least: int): (r: Option<char>)
    ensures r.Some? ==> r.value as int == v
  {
    if least <= v && (0 <= v < 0xD800 || 0xE000 <= v < 0x11_0000) then Some(v as char) else None
  }

  /** Decodes the `n`-byte UTF-8 sequence escaped at the start of `t`, whose lead byte is `b0`. */
  function Scalar(t: string, b0: nat, n: nat): (r: Option<char>)
    requires 1 <= n <= 4 && Utf8Width(b0) == n
  {
    if n == 1 then ToChar(b0, 0)
    else
      var b1 := PctByte(t, 3);
      if !IsContinuation(b1) then None
      else if n == 2 then ToChar((b0 - 0xC0) * 64 + (b1.value - 0x80), 0x80)
      else
        var b2 := PctByte(t, 6);
        if !IsContinuation(b2) then None
        else if n == 3 then ToChar((b0 - 0xE0) * 4096 + (b1.value - 0x80) * 64 + (b2.value - 0x80), 0x800)
        else
          var b3 := PctByte(t, 9);
          if !IsContinuation(b3) then None
          else ToChar((b0 - 0xF0) * 262144 + (b1.value - 0x80) * 4096 + (b2.value - 0x80) * 64 + (b3.value - 0x80), 0x1_0000)
  }

  function Cons(c: char, r: Option<string>): Option<string>
  {
    match r
    case None => None
    case Some(s) => Some([c] + s)
  }

  /** `decodeURIComponent(t)`, with `None` for a malformed escape (where JavaScript throws a URIError). */
  function DecodeUriComponent(t: string): (r: Option<string>)
    decreases |t|
  {
    if t == [] then Some("")
    else if t[0] != '%' then Cons(t[0], DecodeUriComponent(t[1..]))
    else
      match PctByte(t, 0)
      case None => None
      case Some(b0) =>
        var n := Utf8Width(b0);
        if n == 0 || |t| < 3 * n then None
        else
          match Scalar(t, b0, n)
          case None => None
          case Some(c) => Cons(c, DecodeUriComponent(t[3 * n..]))
  }

  // ---------------------------------------------------------------- round trip

  lemma PctByteShift(p: string, u: string, j: nat)
    ensures PctByte(p + u, |p| + j) == PctByte(u, j)
  {
    if j + 3 <= |u| {
      assert (p + u)[|p| + j..|p| + j + 3] == u[j..j + 3];
    }
  }

  lemma EscapeReads(b: nat, rest: string)
    requires b < 256
    ensures PctByte(Escape(b) + rest, 0) == Some(b)
  {
    var t := Escape(b) + rest;
    assert t[0] == '%' && t[1] == HexDigit(b / 16) && t[2] == HexDigit(b % 16);
  }

  lemma {:induction false} EscapeAllAt(bytes: seq<nat>, rest: string, k: nat)
    requires IsByteSeq(bytes) && k < |bytes|
    ensures PctByte(EscapeAll(bytes) + rest, 3 * k) == Some(bytes[k])
  {
    var head := Escape(bytes[0]);
    var tail := EscapeAll(bytes[1..]) + rest;
    assert EscapeAll(bytes) == head + EscapeAll(bytes[1..]);
    assert EscapeAll(bytes) + rest == head + tail;
    if k == 0 {
      EscapeReads(bytes[0], tail);
    } else {
      EscapeAllAt(bytes[1..], rest, k - 1);
      PctByteShift(head, tail, 3 * (k - 1));
    }
  }

  /** The arithmetic behind each width: the UTF-8 digits are in range and recombine to `v`. */
  lemma Recombine2(v: int)
    requires 0x80 <= v < 0x800
    ensures 2 <= v / 64 < 32 && 0 <= v % 64 < 64 && (v / 64) * 64 + v % 64 == v
  {
  }

  lemma Recombine3(v: int)
    requires 0x800 <= v < 0x1_0000
    ensures 0 <= v / 4096 < 16 && 0 <= (v / 64) % 64 < 64 && 0 <= v % 64 < 64
    ensures (v / 4096) * 4096 + ((v / 64) % 64) * 64 + v % 64 == v
  {
    var q := v / 64;
    assert q * 64 + v % 64 == v;
    assert (q / 64) * 64 + q % 64 == q;
    assert q / 64 == v / 4096;
  }

  lemma Recombine4(v: int)
    requires 0x1_0000 <= v < 0x11_0000
    ensures 0 <= v / 262144 < 5 && 0 <= (v / 4096) % 64 < 64 && 0 <= (v / 64) % 64 < 64 && 0 <= v % 64 < 64
    ensures (v / 262144) * 262144 + ((v / 4096) % 64) * 4096 + ((v / 64) % 64) * 64 + v % 64 == v
  {
    var q := v / 64;
    var p := q / 64;
    assert q * 64 + v % 64 == v;
    assert p * 64 + q % 64 == q;
    assert (p / 64) * 64 + p % 64 == p;
    assert p == v / 4096 && p / 64 == v / 262144;
  }

  /** The UTF-8 bytes of each width, digit by digit. */
  lemma Utf8Of2(c: char)
    requires 0x80 <= c as int < 0x800
    ensures Utf8(c) == [0xC0 + (c as int) / 64, 0x80 + (c as int) % 64]
  {
  }

  lemma Utf8Of3(c: char)
    requires 0x800 <= c as int < 0x1_0000
    ensures Utf8(c) == [0xE0 + (c as int) / 4096, 0x80 + ((c as int) / 64) % 64, 0x80 + (c as int) % 64]
  {
  }

  lemma Utf8Of4(c: char)
    requires 0x1_0000 <= c as int
    ensures Utf8(c) == [0xF0 + (c as int) / 262144, 0x80 + ((c as int) / 4096) % 64,
                        0x80 + ((c as int) / 64) % 64, 0x80 + (c as int) % 64]
  {
  }

  /** `Scalar` once the continuation escapes have been read, for each width. */
  lemma ScalarOf3(t: string, b0: nat, b1: nat, b2: nat)
    requires 0xE0 <= b0 < 0xF0 && 0x80 <= b1 < 0xC0 && 0x80 <= b2 < 0xC0
    requires PctByte(t, 3) == Some(b1) && PctByte(t, 6) == Some(b2)
    ensures Scalar(t, b0, 3) == ToChar((b0 - 0xE0) * 4096 + (b1 - 0x80) * 64 + (b2 - 0x80), 0x800)
  {
  }

  lemma ScalarOf4(t: string, b0: nat, b1: nat, b2: nat, b3: nat)
    requires 0xF0 <= b0 < 0xF8 && 0x80 <= b1 < 0xC0 && 0x80 <= b2 < 0xC0 && 0x80 <= b3 < 0xC0
    requires PctByte(t, 3) == Some(b1) && PctByte(t, 6) == Some(b2) && PctByte(t, 9) == Some(b3)
    ensures Scalar(t, b0, 4) == ToChar((b0 - 0xF0) * 262144 + (b1 - 0x80) * 4096 + (b2 - 0x80) * 64 + (b3 - 0x80), 0x1_0000)
  {
  }

  /** The escapes of a two-byte sequence read back as the value they encode. */
  lemma Reads2(bytes: seq<nat>, b0: nat, b1: nat, rest: string)
    requires bytes == [b0, b1] && 0xC0 <= b0 < 0xE0 && 0x80 <= b1 < 0xC0
    ensures var t := EscapeAll(bytes) + rest;
      PctByte(t, 0) == Some(bytes[0]) && Utf8Width(bytes[0]) == 2 &&
      Scalar(t, bytes[0], 2) == ToChar((b0 - 0xC0) * 64 + (b1 - 0x80), 0x80)
  {
    EscapeAllAt(bytes, rest, 0);
    EscapeAllAt(bytes, rest, 1);
  }

  lemma Reads3(bytes: seq<nat>, b0: nat, b1: nat, b2: nat, rest: string)
    requires bytes == [b0, b1, b2] && 0xE0 <= b0 < 0xF0 && 0x80 <= b1 < 0xC0 && 0x80 <= b2 < 0xC0
    ensures var t := EscapeAll(bytes) + rest;
      PctByte(t, 0) == Some(bytes[0]) && Utf8Width(bytes[0]) == 3 &&
      Scalar(t, bytes[0], 3) == ToChar((b0 - 0xE0) * 4096 + (b1 - 0x80) * 64 + (b2 - 0x80), 0x800)
  {
    EscapeAllAt(bytes, rest, 0);
    EscapeAllAt(bytes, rest, 1);
    EscapeAllAt(bytes, rest, 2);
    ScalarOf3(EscapeAll(bytes) + rest, b0, b1, b2);
  }

  lemma Reads4(bytes: seq<nat>, b0: nat, b1: nat, b2: nat, b3: nat, rest: string)
    requires bytes == [b0, b1, b2, b3] && 0xF0 <= b0 < 0xF8 && 0x80 <= b1 < 0xC0 && 0x80 <= b2 < 0xC0 && 0x80 <= b3 < 0xC0
    ensures var t := EscapeAll(bytes) + rest;
      PctByte(t, 0) == Some(bytes[0]) && Utf8Width(bytes[0]) == 4 &&
      Scalar(t, bytes[0], 4) == ToChar((b0 - 0xF0) * 262144 + (b1 - 0x80) * 4096 + (b2 - 0x80) * 64 + (b3 - 0x80), 0x1_0000)
  {
    EscapeAllAt(bytes, rest, 0);
    EscapeAllAt(bytes, rest, 1);
    EscapeAllAt(bytes, rest, 2);
    EscapeAllAt(bytes, rest, 3);
    ScalarOf4(EscapeAll(bytes) + rest, b0, b1, b2, b3);
  }

  lemma Decodes2(c: char, rest: string)
    requires 0x80 <= c as int < 0x800
    ensures var bytes := Utf8(c); var t := EscapeAll(bytes) + rest;
            PctByte(t, 0) == Some(bytes[0]) && Utf8Width(bytes[0]) == 2 && Scalar(t, bytes[0], 2) == Some(c)
  {
    var v := c as int;
    Recombine2(v);
    Utf8Of2(c);
    Reads2(Utf8(c), 0xC0 + v / 64, 0x80 + v % 64, rest);
  }

  lemma Decodes3(c: char, rest: string)
    requires 0x800 <= c as int < 0x1_0000
    ensures var bytes := Utf8(c); var t := EscapeAll(bytes) + rest;
            PctByte(t, 0) == Some(bytes[0]) && Utf8Width(bytes[0]) == 3 && Scalar(t, bytes[0], 3) == Some(c)
  {
    var v := c as int;
    Recombine3(v);
    Utf8Of3(c);
    Reads3(Utf8(c), 0xE0 + v / 4096, 0x80 + (v / 64) % 64, 0x80 + v % 64, rest);
  }

  lemma Decodes4(c: char, rest: string)
    requires 0x1_0000 <= c as int
    ensures var bytes := Utf8(c); var t := EscapeAll(bytes) + rest;
            PctByte(t, 0) == Some(bytes[0]) && Utf8Width(bytes[0]) == 4 && Scalar(t, bytes[0], 4) == Some(c)
  {
    var v := c as int;
    Recombine4(v);
    Utf8Of4(c);
    Reads4(Utf8(c), 0xF0 + v / 262144, 0x80 + (v / 4096) % 64, 0x80 + (v / 64) % 64, 0x80 + v % 64, rest);
  }

  lemma Utf8Decodes(c: char, rest: string)
    requires !Unreserved(c)
    ensures var bytes := Utf8(c); var t := EscapeAll(bytes) + rest;
            PctByte(t, 0) == Some(bytes[0]) && Utf8Width(bytes[0]) == |bytes| &&
            Scalar(t, bytes[0], |bytes|) == Some(c)
  {
    var v := c as int;
    if v < 0x80 {
      EscapeAllAt(Utf8(c), rest, 0);
    } else if v < 0x800 {
      Decodes2(c, rest);
    } else if v < 0x1_0000 {
      Decodes3(c, rest);
    } else {
      Decodes4(c, rest);
    }
  }

  lemma DecodeEncodedChar(c: char, rest: string)
    ensures DecodeUriComponent(EncodeChar(c) + rest) == Cons(c, DecodeUriComponent(rest))
  {
    var t := EncodeChar(c) + rest;
    if Unreserved(c) {
      assert t[1..] == rest;
    } else {
      var bytes := Utf8(c);
      Utf8Decodes(c, rest);
      assert t[3 * |bytes|..] == rest;
    }
  }

  /** What a relay decodes from the escaped URL is exactly the URL the scraper encoded. */
  lemma {:induction false} EncodeDecodeRoundTrip(s: string)
    ensures DecodeUriComponent(EncodeUriComponent(s)) == Some(s)
  {
    if s != [] {
      DecodeEncodedChar(s[0], EncodeUriComponent(s[1..]));
      EncodeDecodeRoundTrip(s[1..]);
      assert [s[0]] + s[1..] == s;
    }
  }
}
